=== FILE: README.md ===
# A verified model of madge's CommonJS dependency parser

madge builds a dependency graph of JavaScript modules. The CommonJS parser takes
source files or directories and does the following:

- finds the `require(...)` ids in every file;
- resolves each id to a file by probing extensions;
- turns each resolved file into a graph id, using its path relative to a common base
  directory, less a trailing `.js`, `.coffee` or `.jsx`, with forward slashes;
- drops excluded ids and repeated ids;
- returns an object that maps each module id to its sorted dependency list, with the keys
  sorted too.

This project models that core as pure Dafny functions and proves what each step guarantees.

Layout, one module per file:

| file | module | contents |
|---|---|---|
| `wrappers.dfy` | `Wrappers` | `Option`, `Result` |
| `text.dfy` | `Text` | string predicates, ASCII lower-casing, the JavaScript `\s` class, greedy runs (`Span`), first-occurrence de-duplication (`Dedup`) |
| `ordering.dfy` | `Ordering` | the default `sort` orders on strings and on `string \| undefined`, a generic insertion sort, uniqueness of sorted permutations |
| `paths.dfy` | `Paths` | backslash rewrite, source-extension strip, simplified `path.resolve` / `path.relative` |
| `patterns.dfy` | `Patterns` | the regular expressions `/require\s*\(/` and `/module\.exports\s*?=\s*([A-Z]+[a-z]+)/`, written out as scans |
| `base.dfy` | `Base` | options and environment, `loadAsFileSync`, `resolve`, `normalize`, `isExcluded`, the tree and `sortDependencies` |
| `cjs.dfy` | `Cjs` | the CommonJS `normalize` and `parseFile`, `addModule`, the traversal fold, and the whole constructor pipeline |

### What the parser gets from outside

`Base.Environment` holds what the parser learns from outside its own code, as
function-typed fields:

- `isFile`: the configured file test.
- `fileExists`: `fs.existsSync`.
- `regexMatches(pattern, id)`: whether the exclude regular expression matches.
- `relative`: `path.relative`, for files that are not below the base directory.
- `scan`: the `detective` call-site scanner, which returns the raw `require` ids of a source text.
- `scanFails`: whether that scanner throws on a source text (a syntax error).
- `readFails`: whether reading and compiling a file throws. Examples are a directory whose name ends in
  `.js`, an unreadable file, or a CoffeeScript or JSX compiler error.

A source text is passed in as a string. No file is read.

### Behaviour of the code that is easy to miss

- **Only ids starting with a letter or `/` are looked up.** The test checks only the first
  character, so `./b` and `../b` are never probed. They come back verbatim and, without
  `breakOnError`, become graph ids as written (`Base.ResolveSkipsDotted`, `Cjs.Normalize`).
- **Extension candidates accumulate.** The probing loop appends to the previous candidate,
  so the candidates are `x.coffee`, then `x.coffee.js`, and so on
  (`Base.Candidate`, `Base.LoadAsFileSyncAccumulates`).
- **A configured empty extensions list disables probing.** An empty list is truthy, so it
  is used as given and no candidate is tried.
- **A self-exported id maps to `undefined`.** With no exclude pattern, that `undefined` is
  kept as one element of the list (`Cjs.LoneSelfExport`). With an exclude pattern,
  `undefined.match` throws. The whole file then yields `[]`, or the error under
  `breakOnError` (`Cjs.SelfExportWithExclusion`).
- **Only one source extension is stripped** (`Base.NormalizeStripsOnce`).
- **Ids resolve against the directory `addModule` is given.** For a file found under a
  directory root, that is the root directory itself, not the directory holding the file.
- **The base normalisation uses the name as given.** The CommonJS `normalize` hands the
  original name, backslashes included, to it, because it re-passes its `arguments` in
  strict mode.

## Model

| member | source | states |
|---|---|---|
| Base.Extensions | lib/parse/base.js:213 | without the option the list is exactly `['.js']`; a configured list, even an empty one, is used as given |
| Base.Candidate | lib/parse/base.js:214-216 | every candidate starts with the path. The first is the path plus the first extension, and each later one is the previous candidate plus the next extension |
| Base.ProbeExtensions | lib/parse/base.js:214-219 | the result is absent exactly when no accumulated candidate is a file; otherwise it is the first candidate that is a file |
| Base.LoadAsFileSync | lib/parse/base.js:208-220 | a path that is a file is returned as is; nothing is found exactly when neither the path nor any candidate is a file; whatever is returned is a file and, when it differs from the input, is the first file among the candidates |
| Base.LoadAsFileSyncDefault | lib/parse/base.js:213-219 | with no extensions configured, a non-file path is found exactly when `path + '.js'` is a file |
| Base.LoadAsFileSyncAccumulates | lib/parse/base.js:214-218 | with `['.coffee', '.js']`, the second candidate is `x.coffee.js`, so an existing `x.js` is not found |
| Base.Probed | lib/parse/base.js:67 | `/^([A-Za-z\/])+/.test(id)`: the id is non-empty and starts with an ASCII letter or `/` |
| Base.ProbedMeaning | lib/parse/base.js:67 | the test holds exactly when the id opens with a non-empty run of letters and slashes, so only the first character decides it |
| Base.Resolve | lib/parse/base.js:61-83 | a probed id resolves to whatever `loadAsFileSync` finds for the joined path: the path itself or the first extension candidate that is a file. Any other success is the id itself. An unprobed or unresolvable id yields the id, or `Cannot find module` naming id and dir under `breakOnError`. There is no failure without `breakOnError` |
| Base.ResolveSkipsDotted | lib/parse/base.js:67-81 | `./c` is returned verbatim and never looked up |
| Base.ResolveDefaultExtension | lib/parse/base.js:67-71 | a bare id is joined to the directory and found with `.js` appended |
| Base.Normalize | lib/parse/base.js:117-119 | ids never contain `\`. Take a file below the base directory, where the base directory is followed by one slash (the root `/` already ends in one). The relative path with backslashes rewritten is then the id followed by either nothing (exactly when the path has no source extension) or one source extension. The id equals the relative path exactly when that path has no backslash and no source extension |
| Base.NormalizeBelowBase | lib/parse/base.js:117-119 | `base/rel + ext` (`/rel + ext` when the base is the root) with a source extension `ext` normalises back to `rel` |
| Base.NormalizeStripsOnce | lib/parse/base.js:118 | `a.js.js` normalises to `a.js`: one extension is stripped, not all |
| Base.NormalizeAtRoot | lib/parse/base.js:117-119 | with the root `/` as base directory, which `getBaseDir` gives for a file directly under it, `/a.js` gets the id `a` |
| Base.IsExcluded | lib/parse/base.js:126-128 | with no pattern, nothing is excluded. It throws exactly when a pattern is set and the value is `undefined`. A value is excluded exactly when it is a string the pattern matches |
| Base.Excludes | lib/parse/base.js:126-128 | for a string id: a pattern is configured and it matches the id |
| Base.Put | lib/parse/base.js:138 | an assignment to a property: keys stay distinct, a new key is appended and an existing one keeps its position, the key maps to the new value, and every other key keeps its value |
| Base.SortDependencies | lib/parse/base.js:184-191 | keys are a permutation of the input keys in strictly ascending order; each list is sorted and is a permutation of that key's original list |
| Base.SortDependenciesIdempotent | lib/parse/base.js:184-191 | applying the sort to an already sorted tree changes nothing |
| Paths.ReplaceBackslash | lib/parse/base.js:198-200 | same length; every `\` becomes `/`; every other character is kept |
| Paths.ReplaceBackslashFixpoint | lib/parse/base.js:198-200 | a string is unchanged exactly when it has no backslash; the rewrite is idempotent |
| Paths.ReplaceBackslashAppend | lib/parse/base.js:198-200 | the rewrite distributes over concatenation |
| Paths.StripSourceExtension | lib/parse/base.js:118 | the result is a prefix of the input; it is unchanged exactly when there is no trailing source extension; otherwise the input is the result plus one source extension |
| Paths.StripAppendedExtension | lib/parse/base.js:118 | stripping undoes appending any one source extension |
| Paths.ReplaceBackslashStripped | lib/parse/base.js:118 | rewriting the path equals rewriting the stripped path followed by exactly the stripped extension |
| Paths.ResolvePath | lib/parse/base.js:68 | an absolute id stands for itself; any other id is placed under `dir/` |
| Paths.Below | lib/parse/base.js:118 | the prefix of paths below a directory: it starts with the directory and ends in exactly one added slash, or none when the directory already ends in one |
| Paths.Relative | lib/parse/base.js:118 | a file below the base directory gets its path below it, where the base directory is followed by one slash (the root `/` already ends in one) |
| Paths.RelativeToRoot | lib/parse/base.js:118 | below the root directory `/`, a file's relative path is its path less the leading slash |
| Paths.HasDrivePrefix | lib/parse/cjs.js:34 | `/^[a-z]:\//i`: an ASCII letter, `:` and `/` open the name |
| Patterns.HasRequireCall | lib/parse/cjs.js:54 | true exactly when `require`, optional whitespace and `(` occur at some position |
| Patterns.HasRequireCallMeaning | lib/parse/cjs.js:54 | the scan agrees both ways with the regular expression read literally: `require`, whitespace only, then `(` |
| Patterns.HasRequireCallExamples | lib/parse/cjs.js:54 | `require ('x')` passes the test; `requires(` does not |
| Patterns.ExportAt | lib/parse/cjs.js:57 | a match anchored at a position starts with `module.exports` and captures a name that starts with a capital |
| Patterns.ExportAtMeaning | lib/parse/cjs.js:57 | the anchored scan agrees both ways with the expression read literally. The match is `module.exports`, whitespace only up to `=`, whitespace only up to the name, a run of capitals, and then the whole run of lower-case letters |
| Patterns.ExportFrom | lib/parse/cjs.js:57 | the match found is the leftmost one: no match starts before it, and none exists when the search fails |
| Patterns.ExportMatch | lib/parse/cjs.js:57 | a match exists exactly when one starts somewhere. The result is the groups of the leftmost match, the whole match and then the captured name, where the whole match starts with `module.exports` and ends with the name |
| Patterns.ExportMatchThing | lib/parse/cjs.js:57 | `module.exports = Thing;` yields `['module.exports = Thing', 'Thing']` |
| Patterns.ExportMatchNeedsCapital | lib/parse/cjs.js:57 | a lower-case name gives no match |
| Patterns.ExportMatchNeedsLowercase | lib/parse/cjs.js:57 | an all-capitals name gives no match |
| Patterns.ExportThenRequire | lib/parse/cjs.js:54-57 | a source that exports `Thing` and then requires `thing` passes the require test and captures `Thing` |
| Cjs.Normalize | lib/parse/cjs.js:32-39 | ids have no `\`. A name that is neither absolute nor drive-prefixed is returned with its backslashes rewritten, and unchanged when it has none. A file-like name gets the base normalisation of the original name |
| Cjs.NormalizeResolvedFile | lib/parse/cjs.js:32-39 | a file found below an absolute base directory normalises to its relative path less its extension |
| Cjs.FileLike | lib/parse/cjs.js:33-34 | once backslashes are rewritten, the name starts with `/` or with a drive prefix |
| Cjs.FileLikeMeaning | lib/parse/cjs.js:33-34 | on the name as given: it opens with a slash of either kind, or with a letter of either case, `:` and a slash of either kind |
| Cjs.SelfExported | lib/parse/cjs.js:57-65 | the first export match exists, and the lower-cased id is among its lower-cased elements |
| Cjs.SelfExportedMeaning | lib/parse/cjs.js:57-65 | an id is self-exported exactly when the export match exists and the id, lower-cased, equals the lower-cased whole match or captured name |
| Cjs.MapId | lib/parse/cjs.js:55-73 | an id maps to `undefined` exactly when it is self-exported, or is empty with `breakOnError` off; any string result is the normalised resolution of an id that is not self-exported; a failure is `Cannot find module` under `breakOnError` |
| Cjs.MapIds | lib/parse/cjs.js:55-74 | succeeds exactly when every id maps, and the result is element-wise. A failure is the error of the first id that throws. There is no failure without `breakOnError` |
| Wrappers.Sequence | lib/parse/cjs.js:55-74 | a `map` whose callback may throw: every value when all calls succeed, otherwise the error of the first call that threw |
| Cjs.Kept | lib/parse/cjs.js:75 | holds exactly the mapped values that pass the exclusion test, and keeps their order of first occurrence |
| Cjs.Collect | lib/parse/cjs.js:74-78 | the filter throws exactly when an exclude pattern is set and some mapped value is `undefined` |
| Cjs.CollectIsDedup | lib/parse/cjs.js:74-78 | the push loop yields the first occurrences, in encounter order, of the values that pass the exclusion test |
| Text.Dedup | lib/parse/cjs.js:75-76 | the result has no repeats, holds every input element and nothing else, and keeps first-occurrence order |
| Text.DedupSnoc | lib/parse/cjs.js:75-76 | one more value is appended exactly when it is new |
| Cjs.ParseFile | lib/parse/cjs.js:46-91 | a missing file gives `[]`, and so does a readable one without `require(`. A read, compile or scan error gives `[]`, or that error under `breakOnError`. There is no failure without `breakOnError`. The list has no repeats and no excluded value, and every string in it is the mapping of some scanned id |
| Cjs.ParseFileValue | lib/parse/cjs.js:46-91 | the exact result: de-duplicated kept mapped ids, else `[]` or the error under `breakOnError`, for both the resolution error and the throw on `undefined` |
| Cjs.SelfExportWithExclusion | lib/parse/cjs.js:55-88 | with an exclude pattern, one self-exported id empties the whole list, or fails under `breakOnError` |
| Cjs.SelfExportWithoutExclusion | lib/parse/cjs.js:55-80 | without an exclude pattern, a self-exported id leaves `undefined` in the list |
| Cjs.LoneSelfExport | lib/parse/cjs.js:55-80 | a file whose only id is its own export yields `[undefined]` |
| Cjs.SelfExportScenario | lib/parse/cjs.js:54-80 | `module.exports = Thing; require('thing')` yields `[undefined]` |
| Cjs.AddModule | lib/parse/base.js:134-141 | an excluded id or a missing file leaves the tree alone. Otherwise the id maps to the parse result, and the call fails exactly when the parse does, with the parse's error. Other keys keep their values and no other key appears; failure needs `breakOnError` |
| Cjs.AddModuleClean | lib/parse/base.js:134-141 | adding a module keeps keys distinct and non-excluded, and every list free of repeats and excluded values |
| Cjs.LastAdmitted | lib/parse/base.js:134-159 | the file whose assignment to an id runs last: it exists, its id is not excluded and is the given one, and no later file does the same. None means no file does |
| Cjs.FirstBreak | lib/parse/base.js:147-159 | the first file whose `addModule` throws: it exists, its id is not excluded and its parse fails, and no earlier file does the same. None means no file does |
| Cjs.AddModules | lib/parse/base.js:134-159 | the traversal keeps the tree in that state. It fails exactly when some file that exists, whose id is not excluded, fails to parse, and then with the error of the first such file; without `breakOnError` nothing fails. Every key of the input tree stays, and every file that exists and whose id is not excluded has its id as a key. Each property holds the parse result of the last such file with that id, because each later `tree[id] =` overwrites the earlier one. A key with no such file keeps its value from the input tree |
| Cjs.ParseTree | lib/parse/base.js:46-50 | fails exactly when some file that exists, whose id is not excluded, fails to parse, and then with the first such error. Otherwise the final tree is in that state, with strictly ascending keys and sorted lists. The keys are exactly the ids of the files that exist and are not excluded, and each list is, up to order, the parse result of the last such file with that id |
| Cjs.SortKeepsClean | lib/parse/base.js:184-191 | sorting keeps keys non-excluded and lists free of repeats and excluded values |
| Ordering.StrLeIsTotalOrder | lib/parse/base.js:187 | the string order of the default sort is a total order |
| Ordering.OptLeIsTotalOrder | lib/parse/base.js:188 | the order on strings and `undefined` (last) is a total order |
| Ordering.Sort | lib/parse/base.js:187-188 | the result is sorted and a permutation of the input |
| Ordering.SortedUnique | lib/parse/base.js:187-188 | two sorted permutations of one multiset are equal |
| Ordering.SortIdempotent | lib/parse/base.js:187-188 | sorting is idempotent and leaves sorted input unchanged |

## Left out

- File system access (`fs.statSync`, `fs.existsSync`, `fs.readFileSync`, the default `isFile`): these are oracles in `Base.Environment`, and source texts are parameters.
- `getBaseDir` and `commondir`: the base directory is a field of `Base.Parser`.
- `resolveTargets`: roots are assumed to be absolute already.
- `getFileSource` and the CoffeeScript and JSX compilers: a file's source text is given already compiled. Whether reading or compiling throws is the oracle `readFails`.
- `detective`: its result is the oracle `scan`, and whether it throws is the oracle `scanFails`. JavaScript parsing is not modelled.
- The directory walk (`walkdir`) and its extension filter in `readFiles`: `Cjs.AddModules` takes the discovered files, already filtered, with their resolution directories.
- The `parseFile` and `addModule` events and their callbacks, console output and colours: callbacks are assumed not to throw, and the rest has no effect on the result.
- `opts.paths` and `opts.readFileSync` in `resolve`: they are read or defaulted but never used for the result.
- Constructing an invalid exclude regular expression: `new RegExp` would throw in the constructor; the model takes the pattern's matches as an oracle.
- Paths.ResolvePath: does not normalise the joined path as `path.resolve` does. The probe test checks only the first character, so ids such as `lib/../util`, `a/./b` and `lib/` are probed. For these the model keeps `.` and `..` segments, repeated slashes and a trailing slash. Node would look up `dir/util` and name it `util`, where the model looks up `dir/lib/../util`. For `lib/`, Node drops the slash and tries `dir/lib.js`, where the model tries `dir/lib/.js`. A relative base directory, which `path.resolve` would complete with the working directory, is not modelled either.
- Paths.Relative: only a file strictly below the base directory is computed, the root directory `/` included. Any other answer of `path.relative` comes from an oracle: a file outside the base directory, the base directory itself, or a path with `.` or `..` segments or repeated slashes.
- Text.Lower: lower-cases ASCII letters only, where `toLowerCase` also folds other Unicode letters.
- Ordering.StrLe: compares characters as Unicode scalar values; JavaScript compares UTF-16 code units, which differ only for characters beyond the Basic Multilingual Plane.
- Base.SortDependencies: the keys come out in string order. A JavaScript object lists integer-like keys first, in numeric order, so ids `10` and `9` are listed as `9` then `10`; the model lists `10` first.
- Base.Put: an insertion-ordered list of properties; the JavaScript rule that integer-like keys enumerate first, and the special `__proto__` key, are not modelled.
- Cjs.MapIds: `detective` ids are given as a list; the model does not check that they occur in the source text.

=== FILE: base.dfy ===
/** The reusable half of the parser (`Base` in the source): module resolution with
    extension probing, id normalisation, the exclusion test, the dependency tree and its
    final sort. Everything the source reads from the disk or hands to a library is a
    field of `Environment`. */
module Base {
  import opened Wrappers
  import opened Text
  import opened Ordering
  import Paths

  /** The options the parser reads. `exclude` is the pattern text, `""` when the option
      is absent (an empty pattern is falsy and switches exclusion off just the same).
      `extensions` is `None` when the option is absent; a configured empty list is kept
      as it is. */
  datatype Options = Options(exclude: string, extensions: Option<seq<string>>, breakOnError: bool)

  /** What the parser learns from outside its own code:
      `isFile` the configured file test, `fileExists` `fs.existsSync`,
      `regexMatches(pattern, id)` whether `id.match(new RegExp(pattern))` finds a match,
      `relative` `path.relative` for files outside the base directory,
      `scan` the call-site scanner returning the raw `require` ids of a source text,
      `scanFails` whether that scanner throws on a source text (a syntax error),
      `readFails` whether reading and compiling a file throws (a directory, an unreadable
      file, a compiler error). */
  datatype Environment = Environment(
    isFile: string -> bool,
    fileExists: string -> bool,
    regexMatches: (string, string) -> bool,
    relative: (string, string) -> string,
    scan: string -> seq<string>,
    scanFails: string -> bool,
    readFails: string -> bool)

  /** One parser instance: its options, the common base directory of its inputs, and
      its environment. */
  datatype Parser = Parser(opts: Options, baseDir: string, env: Environment)

  /** What the parser throws. */
  datatype Error =
    | CannotFindModule(id: string, dir: string)  // `Cannot find module '<id>' from '<dir>'`
    | MatchOnUndefined                           // `undefined.match(...)`, a TypeError
    | SourceUnreadable(filename: string)         // thrown while reading or compiling a file
    | Unparsable                                 // thrown by the call-site scanner

  /** The extensions tried when a path is not a file itself. */
  function Extensions(opts: Options): (r: seq<string>)
    ensures opts.extensions.None? ==> r == [".js"]
    ensures opts.extensions.Some? ==> r == opts.extensions.value
  {
    match opts.extensions
    case Some(exts) => exts
    case None => [".js"]
  }

  /** The `i`-th extension candidate for `file`. Each round of the probing loop appends
      to the previous candidate, so it carries every extension up to the `i`-th. */
  function Candidate(file: string, exts: seq<string>, i: nat): (r: string)
    requires i < |exts|
    ensures StartsWith(r, file)
    ensures i == 0 ==> r == file + exts[0]
    ensures i > 0 ==> r == Candidate(file, exts, i - 1) + exts[i]
    decreases i
  {
    ConcatSnoc(exts[..i + 1]);
    assert exts[..i + 1][..i] == exts[..i];
    file + Concat(exts[..i + 1])
  }

  /** The `i`-th candidate is the first one that is a file. */
  ghost predicate FirstHit(isFile: string -> bool, file: string, exts: seq<string>, i: nat) {
    && i < |exts|
    && isFile(Candidate(file, exts, i))
    && forall j :: 0 <= j < i ==> !isFile(Candidate(file, exts, j))
  }

  lemma CandidateShift(file: string, exts: seq<string>, i: nat)
    requires i + 1 < |exts|
    ensures Candidate(file + exts[0], exts[1..], i) == Candidate(file, exts, i + 1)
  {
    assert exts[..i + 2] == [exts[0]] + exts[1..][..i + 1];
  }

  /** The extension-probing loop: tries the candidates in order and returns the first
      that is a file. */
  function ProbeExtensions(isFile: string -> bool, file: string, exts: seq<string>): (r: Option<string>)
    ensures r.None? <==> forall i :: 0 <= i < |exts| ==> !isFile(Candidate(file, exts, i))
    ensures r.Some? ==> exists i :: FirstHit(isFile, file, exts, i) && r.value == Candidate(file, exts, i)
    decreases |exts|
  {
    if |exts| == 0 then None
    else
      var next := file + exts[0];
      assert Candidate(file, exts, 0) == next by {
        assert exts[..1] == [exts[0]];
        assert Concat([exts[0]]) == exts[0] + Concat([]);
      }
      var rest := ProbeExtensions(isFile, next, exts[1..]);
      forall i | 0 <= i < |exts| - 1 {
        CandidateShift(file, exts, i);
      }
      if isFile(next) then
        assert FirstHit(isFile, file, exts, 0);
        Some(next)
      else
        assert rest.Some? ==> exists i :: FirstHit(isFile, file, exts, i) && rest.value == Candidate(file, exts, i) by {
          if rest.Some? {
            var i: nat :| FirstHit(isFile, next, exts[1..], i) && rest.value == Candidate(next, exts[1..], i);
            forall j | 0 <= j < i + 1
              ensures !isFile(Candidate(file, exts, j))
            {
              if j > 0 {
                assert !isFile(Candidate(next, exts[1..], j - 1));
              }
            }
            assert FirstHit(isFile, file, exts, i + 1);
          }
        }
        assert rest.None? <==> forall i :: 0 <= i < |exts| ==> !isFile(Candidate(file, exts, i)) by {
          if rest.None? {
            forall i | 0 <= i < |exts|
              ensures !isFile(Candidate(file, exts, i))
            {
              if i > 0 {
                assert !isFile(Candidate(next, exts[1..], i - 1));
              }
            }
          } else {
            var i: nat :| FirstHit(isFile, next, exts[1..], i) && rest.value == Candidate(next, exts[1..], i);
            assert isFile(Candidate(file, exts, i + 1));
          }
        }
        rest
  }

  /** No candidate for `file` is a file: neither `file` itself nor any extension
      candidate. */
  ghost predicate Unresolvable(p: Parser, file: string) {
    && !p.env.isFile(file)
    && forall i :: 0 <= i < |Extensions(p.opts)| ==> !p.env.isFile(Candidate(file, Extensions(p.opts), i))
  }

  /** `loadAsFileSync`: `file` itself when it is a file, otherwise the first extension
      candidate that is one. */
  function LoadAsFileSync(p: Parser, file: string): (r: Option<string>)
    ensures p.env.isFile(file) ==> r == Some(file)
    ensures r.None? <==> Unresolvable(p, file)
    ensures r.Some? ==> p.env.isFile(r.value) && StartsWith(r.value, file)
    ensures r.Some? && r.value != file ==>
      exists i :: FirstHit(p.env.isFile, file, Extensions(p.opts), i) && r.value == Candidate(file, Extensions(p.opts), i)
  {
    if p.env.isFile(file) then Some(file)
    else ProbeExtensions(p.env.isFile, file, Extensions(p.opts))
  }

  /** Without configured extensions, a path that is not a file is looked up with `.js`
      appended and nothing else. */
  lemma LoadAsFileSyncDefault(p: Parser, file: string)
    requires p.opts.extensions.None?
    requires !p.env.isFile(file)
    ensures LoadAsFileSync(p, file) == if p.env.isFile(file + ".js") then Some(file + ".js") else None
  {
    assert Candidate(file, [".js"], 0) == file + ".js" by {
      assert [".js"][..1] == [".js"];
      assert Concat([".js"]) == ".js" + Concat([]);
    }
  }

  /** The candidates accumulate: with `.coffee` configured before `.js`, the second
      candidate is `x.coffee.js`, so an existing `x.js` is never found. */
  lemma LoadAsFileSyncAccumulates(p: Parser)
    requires p.opts.extensions == Some([".coffee", ".js"])
    requires !p.env.isFile("/d/x") && !p.env.isFile("/d/x.coffee") && !p.env.isFile("/d/x.coffee.js")
    requires p.env.isFile("/d/x.js")
    ensures LoadAsFileSync(p, "/d/x") == None
  {
    var exts := [".coffee", ".js"];
    assert Candidate("/d/x", exts, 0) == "/d/x.coffee" by {
      assert exts[..1] == [".coffee"];
      assert Concat([".coffee"]) == ".coffee" + Concat([]);
    }
    assert Candidate("/d/x", exts, 1) == "/d/x.coffee.js" by {
      assert exts[..2] == exts;
      assert Concat(exts) == ".coffee" + Concat([".js"]);
      assert Concat([".js"]) == ".js" + Concat([]);
    }
  }

  /** `/^([A-Za-z\/])+/.test(id)`: only ids beginning with a letter or `/` are looked
      up on disk. */
  predicate Probed(id: string) {
    |id| > 0 && (IsAsciiLetter(id[0]) || id[0] == '/')
  }

  /** The probe test read literally: the id opens with a non-empty run of letters and
      slashes. Only the first character decides it. */
  lemma ProbedMeaning(id: string)
    ensures Probed(id) <==> exists n: nat :: 1 <= n <= |id| && LettersOrSlashes(id[..n])
  {
    if Probed(id) {
      assert LettersOrSlashes(id[..1]);
    }
  }

  /** The character class `[A-Za-z\/]` of the probe test, over a whole string. */
  predicate LettersOrSlashes(s: string) {
    forall k :: 0 <= k < |s| ==> IsAsciiLetter(s[k]) || s[k] == '/'
  }

  /** `resolve(dir, id)`: the file a probed id designates, or else `id` itself (or, with
      `breakOnError`, an error naming `id` and `dir`). */
  function Resolve(p: Parser, dir: string, id: string): (r: Result<string, Error>)
    ensures Probed(id) && LoadAsFileSync(p, Paths.ResolvePath(dir, id)).Some? ==>
      r == Success(LoadAsFileSync(p, Paths.ResolvePath(dir, id)).value)
    ensures Probed(id) && p.env.isFile(Paths.ResolvePath(dir, id)) ==> r == Success(Paths.ResolvePath(dir, id))
    ensures r.Success? && r.value != id ==> Probed(id) && p.env.isFile(r.value)
    ensures (!Probed(id) || Unresolvable(p, Paths.ResolvePath(dir, id))) ==>
      r == if p.opts.breakOnError then Failure(CannotFindModule(id, dir)) else Success(id)
    ensures !p.opts.breakOnError ==> r.Success?
    ensures r.Failure? ==> r.error == CannotFindModule(id, dir)
  {
    var res := if Probed(id) then LoadAsFileSync(p, Paths.ResolvePath(dir, id)) else None;
    assert res.Some? ==> |res.value| >= |Paths.ResolvePath(dir, id)| >= |id| > 0;
    if res.Some? && res.value != "" then Success(res.value)
    else if p.opts.breakOnError then Failure(CannotFindModule(id, dir))
    else Success(id)
  }

  /** A relative id such as `./c` is never looked up, even when `/a/b/c.js` exists. */
  lemma ResolveSkipsDotted(p: Parser)
    requires !p.opts.breakOnError
    ensures Resolve(p, "/a/b", "./c") == Success("./c")
  {
  }

  /** A bare id is joined to the directory and found with its default extension. */
  lemma ResolveDefaultExtension(p: Parser)
    requires p.opts.extensions.None?
    requires !p.env.isFile("/a/b/c") && p.env.isFile("/a/b/c.js")
    ensures Resolve(p, "/a/b", "c") == Success("/a/b/c.js")
  {
    assert Probed("c");
    assert Paths.ResolvePath("/a/b", "c") == "/a/b/c";
    assert "/a/b/c" + ".js" == "/a/b/c.js";
    LoadAsFileSyncDefault(p, "/a/b/c");
    assert LoadAsFileSync(p, "/a/b/c") == Some("/a/b/c.js");
  }

  /** `normalize(filename)`: the path relative to the base directory, less one trailing
      source extension, with forward slashes. */
  function Normalize(p: Parser, filename: string): (r: string)
    ensures '\\' !in r
    ensures forall rel :: filename == Paths.Below(p.baseDir) + rel ==>
      && |r| <= |rel|
      && Paths.ReplaceBackslash(rel) == r + rel[|r|..]
      && (|r| == |rel| <==> !Paths.HasSourceExtension(rel))
      && (|r| < |rel| ==> rel[|r|..] in Paths.SourceExtensions)
      && (r == rel <==> '\\' !in rel && !Paths.HasSourceExtension(rel))
  {
    var rel := Paths.Relative(p.baseDir, filename, p.env.relative);
    var stripped := Paths.StripSourceExtension(rel);
    Paths.ReplaceBackslashFixpoint(stripped);
    Paths.ReplaceBackslashStripped(rel);
    Paths.ReplaceBackslash(stripped)
  }

  /** A file below the base directory whose relative path uses forward slashes gets
      that path, less its one trailing source extension, as its id. */
  lemma NormalizeBelowBase(p: Parser, rel: string, ext: string)
    requires '\\' !in rel
    requires ext in Paths.SourceExtensions
    ensures Normalize(p, Paths.Below(p.baseDir) + rel + ext) == rel
  {
    assert Paths.Below(p.baseDir) + rel + ext == Paths.Below(p.baseDir) + (rel + ext);
    Paths.StripAppendedExtension(rel, ext);
    Paths.ReplaceBackslashFixpoint(rel);
  }

  /** Only one extension is dropped: `a.js.js` becomes `a.js`, so an id can still end
      in a source extension. */
  lemma NormalizeStripsOnce(p: Parser)
    ensures Normalize(p, Paths.Below(p.baseDir) + "a.js.js") == "a.js"
  {
    var rel := "a.js";
    assert '\\' !in rel;
    assert Paths.Below(p.baseDir) + "a.js.js" == Paths.Below(p.baseDir) + rel + ".js";
    NormalizeBelowBase(p, rel, ".js");
  }

  /** With the root directory `/` as the base directory, as `getBaseDir` gives for a
      single file directly under it, `/a.js` gets the id `a`. */
  lemma NormalizeAtRoot(p: Parser)
    requires p.baseDir == "/"
    ensures Normalize(p, "/a.js") == "a"
  {
    assert Paths.Below("/") == "/";
    assert "/a.js" == Paths.Below(p.baseDir) + "a" + ".js";
    NormalizeBelowBase(p, "a", ".js");
  }

  /** `isExcluded(id)` for an id that is a string. */
  predicate Excludes(p: Parser, id: string) {
    p.opts.exclude != "" && p.env.regexMatches(p.opts.exclude, id)
  }

  /** `isExcluded(id)` for any value of a mapped dependency array: with an exclude
      pattern configured, `undefined.match` throws. */
  function IsExcluded(p: Parser, v: Option<string>): (r: Result<bool, Error>)
    ensures p.opts.exclude == "" ==> r == Success(false)
    ensures r.Failure? <==> p.opts.exclude != "" && v.None?
    ensures r == Success(true) <==> v.Some? && p.opts.exclude != "" && p.env.regexMatches(p.opts.exclude, v.value)
  {
    if p.opts.exclude == "" then Success(false)
    else match v
      case None => Failure(MatchOnUndefined)
      case Some(id) => Success(Excludes(p, id))
  }

  /** One property of the dependency tree object. */
  datatype Entry = Entry(id: string, deps: seq<Option<string>>)

  /** The tree object, as its properties in insertion order. */
  type Tree = seq<Entry>

  function Ids(t: Tree): (r: seq<string>)
    ensures |r| == |t|
    ensures forall i :: 0 <= i < |t| ==> r[i] == t[i].id
  {
    seq(|t|, i requires 0 <= i < |t| => t[i].id)
  }

  function Lookup(t: Tree, id: string): Option<seq<Option<string>>> {
    if |t| == 0 then None
    else if t[0].id == id then Some(t[0].deps)
    else Lookup(t[1..], id)
  }

  lemma IdsCons(e: Entry, t: Tree)
    ensures Ids([e] + t) == [e.id] + Ids(t)
  {
  }

  lemma LookupCons(e: Entry, t: Tree)
    ensures forall k :: Lookup([e] + t, k) == if e.id == k then Some(e.deps) else Lookup(t, k)
  {
    assert ([e] + t)[1..] == t;
  }

  lemma IdsTail(t: Tree)
    requires |t| > 0
    ensures Ids(t[1..]) == Ids(t)[1..]
    ensures Distinct(Ids(t)) ==> Distinct(Ids(t[1..])) && t[0].id !in Ids(t[1..])
  {
  }

  /** `tree[id] = deps`: replaces the value of an existing property in place, or appends
      a new property. */
  function Put(t: Tree, id: string, deps: seq<Option<string>>): (r: Tree)
    requires Distinct(Ids(t))
    ensures Distinct(Ids(r))
    ensures id in Ids(t) ==> Ids(r) == Ids(t)
    ensures id !in Ids(t) ==> Ids(r) == Ids(t) + [id]
    ensures Lookup(r, id) == Some(deps)
    ensures forall k :: k != id ==> Lookup(r, k) == Lookup(t, k)
    decreases |t|, 1
  {
    if |t| == 0 then [Entry(id, deps)]
    else
      IdsTail(t);
      if t[0].id == id then
        PutHere(t, id, deps);
        [Entry(id, deps)] + t[1..]
      else
        PutLater(t, id, deps);
        [t[0]] + Put(t[1..], id, deps)
  }

  lemma PutHere(t: Tree, id: string, deps: seq<Option<string>>)
    requires |t| > 0 && Distinct(Ids(t)) && t[0].id == id
    ensures var r := [Entry(id, deps)] + t[1..];
      && Distinct(Ids(r)) && Ids(r) == Ids(t) && id in Ids(t)
      && Lookup(r, id) == Some(deps)
      && forall k :: k != id ==> Lookup(r, k) == Lookup(t, k)
  {
    var r := [Entry(id, deps)] + t[1..];
    assert r[1..] == t[1..];
    assert Ids(t)[0] == id;
    assert Ids(r) == Ids(t) by {
      assert forall i :: 0 <= i < |r| ==> Ids(r)[i] == Ids(t)[i];
    }
  }

  lemma PutLater(t: Tree, id: string, deps: seq<Option<string>>)
    requires |t| > 0 && Distinct(Ids(t)) && t[0].id != id
    ensures var r := [t[0]] + Put(t[1..], id, deps);
      && Distinct(Ids(r))
      && (id in Ids(t) ==> Ids(r) == Ids(t))
      && (id !in Ids(t) ==> Ids(r) == Ids(t) + [id])
      && Lookup(r, id) == Some(deps)
      && forall k :: k != id ==> Lookup(r, k) == Lookup(t, k)
    decreases |t|, 0
  {
    IdsTail(t);
    var rest := Put(t[1..], id, deps);
    PutLaterIds(t, id, rest);
    LookupCons(t[0], rest);
    assert t == [t[0]] + t[1..];
    LookupCons(t[0], t[1..]);
  }

  /** Keeping the first property in front of an updated tail keeps the ids distinct. */
  lemma PutLaterIds(t: Tree, id: string, rest: Tree)
    requires |t| > 0 && Distinct(Ids(t)) && t[0].id != id
    requires Distinct(Ids(rest))
    requires id in Ids(t[1..]) ==> Ids(rest) == Ids(t[1..])
    requires id !in Ids(t[1..]) ==> Ids(rest) == Ids(t[1..]) + [id]
    ensures var r := [t[0]] + rest;
      && Distinct(Ids(r))
      && (id in Ids(t) ==> Ids(r) == Ids(t))
      && (id !in Ids(t) ==> Ids(r) == Ids(t) + [id])
  {
    IdsTail(t);
    IdsCons(t[0], rest);
    assert Ids(t) == [t[0].id] + Ids(t[1..]);
    assert t[0].id !in Ids(rest);
  }

  lemma LookupPresent(t: Tree, id: string)
    ensures Lookup(t, id).Some? <==> id in Ids(t)
  {
    if |t| > 0 {
      assert Ids(t) == [t[0].id] + Ids(t[1..]);
      LookupPresent(t[1..], id);
    }
  }

  /** `sortDependencies`: the properties in ascending id order, each dependency list
      sorted. */
  function SortDependencies(t: Tree): (r: Tree)
    requires Distinct(Ids(t))
    ensures multiset(Ids(r)) == multiset(Ids(t))
    ensures forall i, j :: 0 <= i < j < |r| ==> StrLe(r[i].id, r[j].id) && r[i].id != r[j].id
    ensures forall i :: 0 <= i < |r| ==>
      Lookup(t, r[i].id).Some? && Sorted(r[i].deps, OptLe)
      && multiset(r[i].deps) == multiset(Lookup(t, r[i].id).value)
  {
    StrLeIsTotalOrder();
    var keys := Sort(Ids(t), StrLe);
    assert forall i :: 0 <= i < |keys| ==> keys[i] in multiset(Ids(t));
    var r := seq(|keys|, i requires 0 <= i < |keys| => SortedEntry(t, keys[i]));
    assert Ids(r) == keys;
    SortedKeysDistinct(t, keys);
    r
  }

  /** The property `id` of the sorted tree: its list, sorted. */
  function SortedEntry(t: Tree, id: string): (e: Entry)
    requires id in Ids(t)
    ensures e.id == id && Lookup(t, id).Some?
    ensures Sorted(e.deps, OptLe) && multiset(e.deps) == multiset(Lookup(t, id).value)
  {
    OptLeIsTotalOrder();
    LookupPresent(t, id);
    Entry(id, Sort(Lookup(t, id).value, OptLe))
  }

  /** The sorted keys of a tree with distinct keys are strictly ascending. */
  lemma SortedKeysDistinct(t: Tree, keys: seq<string>)
    requires Distinct(Ids(t))
    requires TotalOrder(StrLe)
    requires keys == Sort(Ids(t), StrLe)
    ensures forall i, j :: 0 <= i < j < |keys| ==> StrLe(keys[i], keys[j]) && keys[i] != keys[j]
  {
    DistinctMultiset(Ids(t), keys);
  }

  /** Sorting an already sorted tree changes nothing: the final pass is idempotent. */
  lemma SortDependenciesIdempotent(t: Tree)
    requires Distinct(Ids(t))
    ensures Distinct(Ids(SortDependencies(t)))
    ensures SortDependencies(SortDependencies(t)) == SortDependencies(t)
  {
    StrLeIsTotalOrder();
    OptLeIsTotalOrder();
    var s := SortDependencies(t);
    DistinctMultiset(Ids(t), Ids(s));
    var s2 := SortDependencies(s);
    SortedUnique(Ids(s2), Ids(s), StrLe);
    assert |s2| == |s|;
    forall i | 0 <= i < |s|
      ensures s2[i] == s[i]
    {
      assert s2[i].id == s[i].id;
      LookupAt(s, i);
      SortedUnique(s2[i].deps, s[i].deps, OptLe);
    }
  }

  /** Looking up the id of any property finds that property's value. */
  lemma {:induction false} LookupAt(s: Tree, i: nat)
    requires Distinct(Ids(s))
    requires i < |s|
    ensures Lookup(s, s[i].id) == Some(s[i].deps)
  {
    if i > 0 {
      IdsTail(s);
      assert s[i].id == Ids(s[1..])[i - 1];
      LookupAt(s[1..], i - 1);
    }
  }
}

=== FILE: cjs.dfy ===
/** The CommonJS parser (`CJS` in the source): its `normalize`, which keeps ids that
    name no file opaque, and `parseFile`, which turns the `require` ids of one source
    text into a list of graph ids. `addModule` and the traversal loop of `Base` are here
    too, because on a CommonJS parser they dispatch to these two members. */
module Cjs {
  import opened Wrappers
  import opened Text
  import opened Ordering
  import opened Base
  import Paths
  import Patterns

  /** A path `normalize` treats as a file: absolute, or starting with a drive letter,
      once its backslashes are rewritten. */
  predicate FileLike(filename: string) {
    var g := Paths.ReplaceBackslash(filename);
    (|g| > 0 && g[0] == '/') || Paths.HasDrivePrefix(g)
  }

  /** What makes a name file-like, stated on the name as given: it opens with a slash of
      either kind, or with a drive letter of either case, `:` and a slash of either kind. */
  lemma FileLikeMeaning(filename: string)
    ensures FileLike(filename) <==>
      || (|filename| > 0 && IsSlash(filename[0]))
      || (|filename| >= 3 && IsAsciiLetter(filename[0]) && filename[1] == ':' && IsSlash(filename[2]))
  {
    var g := Paths.ReplaceBackslash(filename);
    assert forall i :: 0 <= i < |filename| ==> (g[i] == '/' <==> IsSlash(filename[i]));
    assert forall i :: 0 <= i < |filename| && !IsSlash(filename[i]) ==> g[i] == filename[i];
  }

  predicate IsSlash(c: char) { c == '/' || c == '\\' }

  /** `CJS.prototype.normalize`: a name that is not file-like (a core module or an id
      left unresolved) stays as it is, apart from its backslashes; a file-like one gets
      the base normalisation, applied to the name as given. */
  function Normalize(p: Parser, filename: string): (r: string)
    ensures '\\' !in r
    ensures !FileLike(filename) && '\\' !in filename ==> r == filename
    ensures !FileLike(filename) ==> r == Paths.ReplaceBackslash(filename)
    ensures FileLike(filename) ==> r == Base.Normalize(p, filename)
  {
    var g := Paths.ReplaceBackslash(filename);
    Paths.ReplaceBackslashFixpoint(filename);
    if !((|g| > 0 && g[0] == '/') || Paths.HasDrivePrefix(g)) then g
    else Base.Normalize(p, filename)
  }

  /** A file found by probing below the base directory gets its relative path, less
      its source extension, as its id. */
  lemma NormalizeResolvedFile(p: Parser, rel: string, ext: string)
    requires |p.baseDir| > 0 && p.baseDir[0] == '/'
    requires '\\' !in p.baseDir && '\\' !in rel
    requires ext in Paths.SourceExtensions
    ensures Normalize(p, Paths.Below(p.baseDir) + rel + ext) == rel
  {
    var prefix := Paths.Below(p.baseDir);
    var f := prefix + rel + ext;
    assert f[0] == prefix[0] == '/';
    assert '\\' !in prefix by {
      assert forall i :: 0 <= i < |prefix| ==> prefix[i] in p.baseDir || prefix[i] == '/';
    }
    assert '\\' !in f by {
      assert forall i :: 0 <= i < |f| ==> f[i] in prefix || f[i] in rel || f[i] in ext;
    }
    Paths.ReplaceBackslashFixpoint(f);
    NormalizeBelowBase(p, rel, ext);
  }

  /** The self-export heuristic: `id` is taken for the file's own export when its lower
      case equals the lower case of an element of the first `module.exports = Name`
      match (the whole match or the captured name). */
  predicate SelfExported(src: string, id: string) {
    match Patterns.ExportMatch(src)
    case None => false
    case Some(found) => Lower(id) in LowerAll(found)
  }

  lemma SelfExportedMeaning(src: string, id: string)
    ensures SelfExported(src, id) <==>
      Patterns.ExportMatch(src).Some?
      && (Lower(id) == Lower(Patterns.ExportMatch(src).value[0])
          || Lower(id) == Lower(Patterns.ExportMatch(src).value[1]))
  {
    var found := Patterns.ExportMatch(src);
    if found.Some? {
      assert LowerAll(found.value) == [Lower(found.value[0]), Lower(found.value[1])];
    }
  }

  /** The mapping callback of `parseFile` for one scanned `id`: `None` (`undefined`)
      for a self-exported id and for an id that resolves to the empty string, otherwise
      the normalised resolution. */
  function MapId(p: Parser, base: string, src: string, id: string): (r: Result<Option<string>, Error>)
    ensures SelfExported(src, id) ==> r == Success(None)
    ensures r == Success(None) <==> SelfExported(src, id) || (id == "" && !p.opts.breakOnError)
    ensures r.Success? && r.value.Some? ==>
      && !SelfExported(src, id)
      && Resolve(p, base, id).Success?
      && r.value.value == Normalize(p, Resolve(p, base, id).value)
    ensures r.Failure? ==> p.opts.breakOnError && !SelfExported(src, id) && r.error == CannotFindModule(id, base)
  {
    if SelfExported(src, id) then Success(None)
    else match Resolve(p, base, id)
      case Failure(e) => Failure(e)
      case Success(dep) => if dep != "" then Success(Some(Normalize(p, dep))) else Success(None)
  }

  /** `detective(src).map(...)`: maps every scanned id in order, stopping at the first
      that throws. */
  function MapIds(p: Parser, base: string, src: string, ids: seq<string>): (r: Result<seq<Option<string>>, Error>)
    ensures r.Success? <==> forall k :: 0 <= k < |ids| ==> MapId(p, base, src, ids[k]).Success?
    ensures r.Success? ==>
      |r.value| == |ids| && forall k :: 0 <= k < |ids| ==> MapId(p, base, src, ids[k]) == Success(r.value[k])
    ensures r.Failure? ==>
      exists k :: 0 <= k < |ids| && MapId(p, base, src, ids[k]) == Failure(r.error)
        && (forall j :: 0 <= j < k ==> MapId(p, base, src, ids[j]).Success?)
    ensures !p.opts.breakOnError ==> r.Success?
  {
    var rs := seq(|ids|, k requires 0 <= k < |ids| => MapId(p, base, src, ids[k]));
    assert forall k :: 0 <= k < |ids| ==> rs[k] == MapId(p, base, src, ids[k]);
    Sequence(rs)
  }

  /** The mapped values that pass the exclusion test, in their order. */
  function Kept(p: Parser, m: seq<Option<string>>): (r: seq<Option<string>>)
    ensures forall i :: 0 <= i < |r| ==> r[i] in m && IsExcluded(p, r[i]) == Success(false)
    ensures forall i :: 0 <= i < |m| && IsExcluded(p, m[i]) == Success(false) ==> m[i] in r
    ensures forall x, y :: x in r && y in r && FirstIndex(r, x) < FirstIndex(r, y) ==>
      FirstIndex(m, x) < FirstIndex(m, y)
  {
    if |m| == 0 then []
    else
      var rest := Kept(p, m[1..]);
      assert forall i :: 1 <= i < |m| ==> m[i] == m[1..][i - 1];
      var r := if IsExcluded(p, m[0]) == Success(false) then [m[0]] + rest else rest;
      KeptOrderStep(m, rest, r);
      r
  }

  /** The order step of `Kept`: the values from the tail keep their relative order, and
      a kept head comes first. */
  lemma KeptOrderStep(m: seq<Option<string>>, rest: seq<Option<string>>, r: seq<Option<string>>)
    requires |m| > 0 && (r == [m[0]] + rest || (r == rest && m[0] !in rest))
    requires forall i :: 0 <= i < |rest| ==> rest[i] in m[1..]
    requires forall x, y :: x in rest && y in rest && FirstIndex(rest, x) < FirstIndex(rest, y) ==>
      FirstIndex(m[1..], x) < FirstIndex(m[1..], y)
    ensures forall i :: 0 <= i < |r| ==> r[i] in m
    ensures forall x, y :: x in r && y in r && FirstIndex(r, x) < FirstIndex(r, y) ==>
      FirstIndex(m, x) < FirstIndex(m, y)
  {
    forall i | 0 <= i < |r|
      ensures r[i] in m
    {
      assert r[i] == m[0] || r[i] in m[1..];
    }
    forall x, y | x in r && y in r && FirstIndex(r, x) < FirstIndex(r, y)
      ensures FirstIndex(m, x) < FirstIndex(m, y)
    {
      if x == m[0] {
        assert FirstIndex(m, x) == 0;
        assert y != m[0];
      } else {
        assert y != m[0];
        if r == [m[0]] + rest {
          assert r[1..] == rest;
          assert FirstIndex(r, x) == 1 + FirstIndex(rest, x);
          assert FirstIndex(r, y) == 1 + FirstIndex(rest, y);
        }
        assert FirstIndex(m, x) == 1 + FirstIndex(m[1..], x);
        assert FirstIndex(m, y) == 1 + FirstIndex(m[1..], y);
      }
    }
  }

  /** The `.filter` pass of `parseFile`, used for its side effect: each value that is
      not excluded and not yet in `deps` is pushed onto `deps`. The exclusion test runs
      first and throws on `undefined` when an exclude pattern is set. */
  function Collect(p: Parser, m: seq<Option<string>>, deps: seq<Option<string>>): (r: Result<seq<Option<string>>, Error>)
    ensures r.Failure? <==> p.opts.exclude != "" && None in m
    ensures r.Failure? ==> r.error == MatchOnUndefined
  {
    if |m| == 0 then Success(deps)
    else match IsExcluded(p, m[0])
      case Failure(e) => Failure(e)
      case Success(excluded) =>
        assert m == [m[0]] + m[1..];
        Collect(p, m[1..], if !excluded && m[0] !in deps then deps + [m[0]] else deps)
  }

  /** The push loop computes the first occurrences of the values that pass the
      exclusion test, in the order they first occur. */
  lemma {:induction false} CollectIsDedup(p: Parser, m: seq<Option<string>>, prefix: seq<Option<string>>)
    requires p.opts.exclude == "" || None !in m
    ensures Collect(p, m, Dedup(prefix)) == Success(Dedup(prefix + Kept(p, m)))
    decreases |m|
  {
    if |m| == 0 {
      assert prefix + Kept(p, m) == prefix;
    } else {
      var next := CollectRound(p, m, prefix);
      CollectIsDedup(p, m[1..], next);
    }
  }

  /** One round of the push loop keeps the accumulated list equal to the first
      occurrences of the values seen so far, and returns those values. */
  lemma CollectRound(p: Parser, m: seq<Option<string>>, prefix: seq<Option<string>>) returns (next: seq<Option<string>>)
    requires |m| > 0
    requires p.opts.exclude == "" || None !in m
    ensures p.opts.exclude == "" || None !in m[1..]
    ensures Collect(p, m, Dedup(prefix)) == Collect(p, m[1..], Dedup(next))
    ensures next + Kept(p, m[1..]) == prefix + Kept(p, m)
  {
    CollectStep(p, m, Dedup(prefix));
    if IsExcluded(p, m[0]) == Success(false) {
      next := prefix + [m[0]];
      DedupSnoc(prefix, m[0]);
      KeptSnoc(prefix, m[0], Kept(p, m[1..]));
    } else {
      next := prefix;
    }
  }

  /** Regrouping the accumulated list with the values still to come. */
  lemma KeptSnoc(prefix: seq<Option<string>>, x: Option<string>, rest: seq<Option<string>>)
    ensures (prefix + [x]) + rest == prefix + ([x] + rest)
  {
  }

  /** One round of the push loop, when the exclusion test does not throw. */
  lemma CollectStep(p: Parser, m: seq<Option<string>>, d: seq<Option<string>>)
    requires |m| > 0
    requires p.opts.exclude == "" || None !in m
    ensures p.opts.exclude == "" || None !in m[1..]
    ensures IsExcluded(p, m[0]).Success?
    ensures Collect(p, m, d) ==
      Collect(p, m[1..], if IsExcluded(p, m[0]) == Success(false) && m[0] !in d then d + [m[0]] else d)
    ensures Kept(p, m) == if IsExcluded(p, m[0]) == Success(false) then [m[0]] + Kept(p, m[1..]) else Kept(p, m[1..])
  {
    assert m[0] in m;
    assert forall i :: 0 <= i < |m[1..]| ==> m[1..][i] == m[i + 1];
  }

  /** What the `catch` of `parseFile` makes of a thrown error. */
  function Caught(p: Parser, e: Error): Result<seq<Option<string>>, Error> {
    if p.opts.breakOnError then Failure(e) else Success([])
  }

  /** `parseFile(base, filename)` over the file's source text `src` (the text read and
      compiled from `filename` when that does not throw): `[]` for a file that does not
      exist or whose text has no `require(`; otherwise the mapped ids after exclusion
      and de-duplication. Anything thrown on the way (reading, scanning, resolving, the
      exclusion test) yields `[]`, or propagates under `breakOnError`. */
  function ParseFile(p: Parser, base: string, filename: string, src: string): (r: Result<seq<Option<string>>, Error>)
    ensures !p.env.fileExists(filename) ==> r == Success([])
    ensures p.env.fileExists(filename) && p.env.readFails(filename) ==>
      r == if p.opts.breakOnError then Failure(SourceUnreadable(filename)) else Success([])
    ensures !p.env.readFails(filename) && !Patterns.HasRequireCall(src) ==> r == Success([])
    ensures p.env.fileExists(filename) && !p.env.readFails(filename) && Patterns.HasRequireCall(src) && p.env.scanFails(src) ==>
      r == if p.opts.breakOnError then Failure(Unparsable) else Success([])
    ensures !p.opts.breakOnError ==> r.Success?
    ensures r.Success? ==> Distinct(r.value)
    ensures r.Success? ==> forall i :: 0 <= i < |r.value| ==> IsExcluded(p, r.value[i]) == Success(false)
    ensures r.Success? ==> forall i :: 0 <= i < |r.value| && r.value[i].Some? ==>
      exists k :: 0 <= k < |p.env.scan(src)| && MapId(p, base, src, p.env.scan(src)[k]) == Success(r.value[i])
  {
    if !p.env.fileExists(filename) then Success([])
    else if p.env.readFails(filename) then Caught(p, SourceUnreadable(filename))
    else if !Patterns.HasRequireCall(src) then Success([])
    else if p.env.scanFails(src) then Caught(p, Unparsable)
    else
      var ids := p.env.scan(src);
      var outcome := match MapIds(p, base, src, ids)
        case Failure(e) => Failure(e)
        case Success(mapped) =>
          if p.opts.exclude == "" || None !in mapped then
            CollectIsDedup(p, mapped, []);
            assert [] + Kept(p, mapped) == Kept(p, mapped);
            Collect(p, mapped, [])
          else Collect(p, mapped, []);
      match outcome
      case Success(deps) => Success(deps)
      case Failure(e) => Caught(p, e)
  }

  /** When the source has a `require(` call and mapping and filtering do not throw, the
      result is exactly the first occurrences of the mapped ids that pass the exclusion
      test, in encounter order; otherwise the file yields `[]`, or the error under
      `breakOnError`. */
  lemma ParseFileValue(p: Parser, base: string, filename: string, src: string)
    requires p.env.fileExists(filename) && Patterns.HasRequireCall(src)
    requires !p.env.readFails(filename) && !p.env.scanFails(src)
    ensures var mapped := MapIds(p, base, src, p.env.scan(src));
      var r := ParseFile(p, base, filename, src);
      && (mapped.Success? && (p.opts.exclude == "" || None !in mapped.value) ==>
            r == Success(Dedup(Kept(p, mapped.value))))
      && (mapped.Failure? ==> r == if p.opts.breakOnError then Failure(mapped.error) else Success([]))
      && (mapped.Success? && p.opts.exclude != "" && None in mapped.value ==>
            r == if p.opts.breakOnError then Failure(MatchOnUndefined) else Success([]))
  {
    var mapped := MapIds(p, base, src, p.env.scan(src));
    if mapped.Success? && (p.opts.exclude == "" || None !in mapped.value) {
      CollectIsDedup(p, mapped.value, []);
      assert [] + Kept(p, mapped.value) == Kept(p, mapped.value);
    }
  }

  /** A self-exported id in a file with an exclude pattern wipes out the file's whole
      dependency list: its `undefined` reaches the exclusion test, which throws. */
  lemma SelfExportWithExclusion(p: Parser, base: string, filename: string, src: string, k: nat)
    requires p.env.fileExists(filename) && Patterns.HasRequireCall(src)
    requires !p.env.readFails(filename) && !p.env.scanFails(src)
    requires p.opts.exclude != ""
    requires k < |p.env.scan(src)| && SelfExported(src, p.env.scan(src)[k])
    ensures !p.opts.breakOnError ==> ParseFile(p, base, filename, src) == Success([])
    ensures p.opts.breakOnError ==> ParseFile(p, base, filename, src).Failure?
  {
    ParseFileValue(p, base, filename, src);
    var mapped := MapIds(p, base, src, p.env.scan(src));
    if mapped.Success? {
      assert mapped.value[k] == None;
    }
  }

  /** Without an exclude pattern, a self-exported id leaves one `undefined` in the
      dependency list instead of disappearing. */
  lemma SelfExportWithoutExclusion(p: Parser, base: string, filename: string, src: string, k: nat)
    requires p.env.fileExists(filename) && Patterns.HasRequireCall(src)
    requires !p.env.readFails(filename) && !p.env.scanFails(src)
    requires p.opts.exclude == ""
    requires MapIds(p, base, src, p.env.scan(src)).Success?
    requires k < |p.env.scan(src)| && SelfExported(src, p.env.scan(src)[k])
    ensures ParseFile(p, base, filename, src).Success?
    ensures None in ParseFile(p, base, filename, src).value
  {
    ParseFileValue(p, base, filename, src);
    var mapped := MapIds(p, base, src, p.env.scan(src)).value;
    assert mapped[k] == None;
    assert IsExcluded(p, mapped[k]) == Success(false);
    assert None in Kept(p, mapped);
  }

  /** A file whose only required id is its own export yields `[undefined]` when no
      exclude pattern is set. */
  lemma LoneSelfExport(p: Parser, base: string, filename: string, src: string, id: string)
    requires p.env.fileExists(filename) && Patterns.HasRequireCall(src)
    requires !p.env.readFails(filename) && !p.env.scanFails(src)
    requires p.opts.exclude == ""
    requires p.env.scan(src) == [id] && SelfExported(src, id)
    ensures ParseFile(p, base, filename, src) == Success([None])
  {
    var none: seq<Option<string>> := [];
    assert MapIds(p, base, src, [id]) == Success([None]) by {
      var r := MapIds(p, base, src, [id]);
      assert MapId(p, base, src, [id][0]) == Success(None);
      assert r.Success? && r.value[0] == None;
      assert r.value == [None];
    }
    assert Dedup(Kept(p, [None])) == [None] by {
      assert Kept(p, [None]) == [None] by {
        assert [None][1..] == none;
      }
      DedupSnoc(none, None);
      assert none + [None] == [None];
    }
    ParseFileValue(p, base, filename, src);
  }

  /** A file that requires `thing` and exports `Thing` lists no `thing`, but without an
      exclude pattern it lists one `undefined` instead of nothing. */
  lemma SelfExportScenario(p: Parser, base: string, filename: string)
    requires p.env.fileExists(filename) && !p.env.readFails(filename)
    requires p.opts.exclude == ""
    requires !p.env.scanFails("module.exports = Thing; require('thing')")
    requires p.env.scan("module.exports = Thing; require('thing')") == ["thing"]
    ensures ParseFile(p, base, filename, "module.exports = Thing; require('thing')") == Success([None])
  {
    var src := "module.exports = Thing; require('thing')";
    Patterns.ExportThenRequire();
    ThingIsSelfExported(src);
    LoneSelfExport(p, base, filename, src, "thing");
  }

  /** `thing` matches the captured `Thing` once both are lower-cased. */
  lemma ThingIsSelfExported(src: string)
    requires Patterns.ExportMatch(src) == Some(["module.exports = Thing", "Thing"])
    ensures SelfExported(src, "thing")
  {
    LowerThing();
    SelfExportedMeaning(src, "thing");
  }

  /** Lower-casing `Thing` and `thing` gives the same text. */
  lemma LowerThing()
    ensures Lower("thing") == "thing" && Lower("Thing") == "thing"
  {
    var a := Lower("Thing");
    assert |a| == 5;
    assert a[0] == LowerChar('T') == 't';
    assert a[1] == 'h' && a[2] == 'i' && a[3] == 'n' && a[4] == 'g';
    var b := Lower("thing");
    assert b[0] == 't' && b[1] == 'h' && b[2] == 'i' && b[3] == 'n' && b[4] == 'g';
  }

  /** `addModule(basedir, filename)`: the file's id gets the parse result when the id is
      not excluded and the file exists; otherwise the tree is left alone. */
  function AddModule(p: Parser, tree: Tree, basedir: string, filename: string, src: string): (r: Result<Tree, Error>)
    requires Distinct(Ids(tree))
    ensures r.Success? ==> Distinct(Ids(r.value))
    ensures Excludes(p, Normalize(p, filename)) || !p.env.fileExists(filename) ==> r == Success(tree)
    ensures !Excludes(p, Normalize(p, filename)) && p.env.fileExists(filename) ==>
      && (r.Success? <==> ParseFile(p, basedir, filename, src).Success?)
      && (r.Success? ==> Lookup(r.value, Normalize(p, filename)) == Some(ParseFile(p, basedir, filename, src).value))
    ensures r.Success? ==> forall k :: k != Normalize(p, filename) ==> Lookup(r.value, k) == Lookup(tree, k)
    ensures r.Success? ==> Ids(r.value) == Ids(tree) || Ids(r.value) == Ids(tree) + [Normalize(p, filename)]
    ensures r.Failure? ==> p.opts.breakOnError
    ensures r.Failure? ==> ParseFile(p, basedir, filename, src) == Failure(r.error)
  {
    var id := Normalize(p, filename);
    if !Excludes(p, id) && p.env.fileExists(filename) then
      match ParseFile(p, basedir, filename, src)
      case Success(deps) => Success(Put(tree, id, deps))
      case Failure(e) => Failure(e)
    else Success(tree)
  }

  /** A file the traversal hands to `addModule`: the resolution directory, the path,
      and the source text read from it. */
  datatype Discovered = Discovered(basedir: string, filename: string, src: string)

  /** Every key of the tree is a non-excluded id, and every dependency list is free of
      repetitions and of excluded values. */
  ghost predicate ExclusionClean(p: Parser, t: Tree) {
    && Distinct(Ids(t))
    && (forall i :: 0 <= i < |t| ==> !Excludes(p, t[i].id))
    && (forall i :: 0 <= i < |t| ==> Distinct(t[i].deps))
    && (forall i, j :: 0 <= i < |t| && 0 <= j < |t[i].deps| ==> IsExcluded(p, t[i].deps[j]) == Success(false))
  }

  /** `addModule` writes a property for this file: it exists and its id is not excluded. */
  predicate Admitted(p: Parser, f: Discovered) {
    !Excludes(p, Normalize(p, f.filename)) && p.env.fileExists(f.filename)
  }

  /** The property `e` is the one parsing `f` writes. */
  predicate Produced(p: Parser, f: Discovered, e: Entry) {
    e.id == Normalize(p, f.filename) && ParseFile(p, f.basedir, f.filename, f.src) == Success(e.deps)
  }

  /** The index of the last admitted file whose id is `id`: the one whose
      `tree[id] = ...` assignment is the last to run. */
  function LastAdmitted(p: Parser, files: seq<Discovered>, id: string): (r: Option<nat>)
    ensures r.Some? ==> r.value < |files| && Admitted(p, files[r.value]) && Normalize(p, files[r.value].filename) == id
    ensures r.Some? ==> forall j :: r.value < j < |files| && Admitted(p, files[j]) ==> Normalize(p, files[j].filename) != id
    ensures r.None? ==> forall j :: 0 <= j < |files| && Admitted(p, files[j]) ==> Normalize(p, files[j].filename) != id
  {
    if |files| == 0 then None
    else
      assert forall j :: 0 < j < |files| ==> files[j] == files[1..][j - 1];
      match LastAdmitted(p, files[1..], id)
      case Some(j) => Some(j + 1)
      case None => if Admitted(p, files[0]) && Normalize(p, files[0].filename) == id then Some(0) else None
  }

  /** The property `e` is what the traversal leaves for its id: the parse result of the
      last admitted file with that id, or, when there is none, the starting tree's. */
  predicate Traced(p: Parser, tree: Tree, files: seq<Discovered>, e: Entry) {
    match LastAdmitted(p, files, e.id)
    case None => Lookup(tree, e.id) == Some(e.deps)
    case Some(j) => Produced(p, files[j], e)
  }

  /** `addModule` throws for this file: it is admitted and parsing it throws. */
  predicate Breaks(p: Parser, f: Discovered) {
    Admitted(p, f) && ParseFile(p, f.basedir, f.filename, f.src).Failure?
  }

  /** The index of the first file whose `addModule` throws, which ends the `forEach`. */
  function FirstBreak(p: Parser, files: seq<Discovered>): (r: Option<nat>)
    ensures r.Some? ==> r.value < |files| && Breaks(p, files[r.value])
    ensures r.Some? ==> forall k :: 0 <= k < r.value ==> !Breaks(p, files[k])
    ensures r.None? ==> forall k :: 0 <= k < |files| ==> !Breaks(p, files[k])
  {
    FirstWhere(files, BreaksOf(p))
  }

  /** `Breaks` for one parser, as a test on files. */
  function BreaksOf(p: Parser): (b: Discovered -> bool)
    ensures forall f :: b(f) == Breaks(p, f)
  {
    f => Breaks(p, f)
  }

  /** Past a first file that does not throw, the first break is the later files' one. */
  lemma FirstBreakStep(p: Parser, files: seq<Discovered>)
    requires |files| > 0 && !Breaks(p, files[0])
    ensures FirstBreak(p, files).Some? <==> FirstBreak(p, files[1..]).Some?
    ensures FirstBreak(p, files).Some? ==> FirstBreak(p, files).value == FirstBreak(p, files[1..]).value + 1
  {
    FirstWhereStep(files, BreaksOf(p));
  }

  /** The `forEach` of `readFiles` over the discovered files, stopping at the first
      error (which only `breakOnError` lets through). */
  function AddModules(p: Parser, tree: Tree, files: seq<Discovered>): (r: Result<Tree, Error>)
    requires ExclusionClean(p, tree)
    ensures r.Success? ==> ExclusionClean(p, r.value)
    ensures !p.opts.breakOnError ==> r.Success?
    ensures r.Failure? <==> FirstBreak(p, files).Some?
    ensures r.Failure? ==> ParseFile(p, files[FirstBreak(p, files).value].basedir, files[FirstBreak(p, files).value].filename,
      files[FirstBreak(p, files).value].src) == Failure(r.error)
    ensures r.Success? ==> forall i :: 0 <= i < |r.value| ==> Traced(p, tree, files, r.value[i])
    ensures r.Success? ==> forall i :: 0 <= i < |tree| ==> tree[i].id in Ids(r.value)
    ensures r.Success? ==> forall j :: 0 <= j < |files| && Admitted(p, files[j]) ==>
      Normalize(p, files[j].filename) in Ids(r.value)
    decreases |files|
  {
    if |files| == 0 then
      forall i | 0 <= i < |tree| {
        LookupAt(tree, i);
      }
      Success(tree)
    else
      var f := files[0];
      match AddModule(p, tree, f.basedir, f.filename, f.src)
      case Failure(e) => Failure(e)
      case Success(t) =>
        AddModuleClean(p, tree, f);
        var r := AddModules(p, t, files[1..]);
        FirstBreakStep(p, files);
        assert FirstBreak(p, files[1..]).Some? ==> files[1..][FirstBreak(p, files[1..]).value] == files[FirstBreak(p, files).value];
        if r.Success? then
          TraceCons(p, tree, files, t, r.value);
          KeysKept(p, tree, f, t, r.value);
          AdmittedCons(p, tree, files, t, r.value);
          r
        else r
  }

  /** The step of `AddModules` for the origin of each property: a property traced
      through the later files from the tree after the first file is traced through all
      files from the tree before it. */
  lemma TraceCons(p: Parser, tree: Tree, files: seq<Discovered>, t: Tree, r: Tree)
    requires Distinct(Ids(tree)) && |files| > 0
    requires AddModule(p, tree, files[0].basedir, files[0].filename, files[0].src) == Success(t)
    requires forall i :: 0 <= i < |r| ==> Traced(p, t, files[1..], r[i])
    ensures forall i :: 0 <= i < |r| ==> Traced(p, tree, files, r[i])
  {
    forall i | 0 <= i < |r|
      ensures Traced(p, tree, files, r[i])
    {
      var e := r[i];
      match LastAdmitted(p, files[1..], e.id)
      case Some(j) =>
        assert files[1..][j] == files[j + 1];
      case None =>
        TracedToFirst(p, tree, files[0], t, e);
    }
  }

  /** The step of `AddModules` for the admitted files: the first one's key survives, and
      the later ones' keys are there already. */
  lemma AdmittedCons(p: Parser, tree: Tree, files: seq<Discovered>, t: Tree, r: Tree)
    requires Distinct(Ids(tree)) && |files| > 0
    requires AddModule(p, tree, files[0].basedir, files[0].filename, files[0].src) == Success(t)
    requires forall i :: 0 <= i < |t| ==> t[i].id in Ids(r)
    requires forall j :: 0 <= j < |files[1..]| && Admitted(p, files[1..][j]) ==>
      Normalize(p, files[1..][j].filename) in Ids(r)
    ensures forall j :: 0 <= j < |files| && Admitted(p, files[j]) ==>
      Normalize(p, files[j].filename) in Ids(r)
  {
    forall j | 0 <= j < |files| && Admitted(p, files[j])
      ensures Normalize(p, files[j].filename) in Ids(r)
    {
      if j == 0 {
        FirstKeyKept(p, tree, files[0], t, r);
      } else {
        assert files[j] == files[1..][j - 1];
      }
    }
  }

  /** A property present after adding `f` is either the one parsing `f` wrote or was
      already there. */
  lemma TracedToFirst(p: Parser, tree: Tree, f: Discovered, t: Tree, e: Entry)
    requires Distinct(Ids(tree))
    requires AddModule(p, tree, f.basedir, f.filename, f.src) == Success(t)
    requires Lookup(t, e.id) == Some(e.deps)
    ensures Admitted(p, f) && Normalize(p, f.filename) == e.id ==> Produced(p, f, e)
    ensures !(Admitted(p, f) && Normalize(p, f.filename) == e.id) ==> Lookup(tree, e.id) == Some(e.deps)
  {
  }

  /** Adding `f` and then more files keeps every earlier key. */
  lemma KeysKept(p: Parser, tree: Tree, f: Discovered, t: Tree, r: Tree)
    requires Distinct(Ids(tree))
    requires AddModule(p, tree, f.basedir, f.filename, f.src) == Success(t)
    requires forall i :: 0 <= i < |t| ==> t[i].id in Ids(r)
    ensures forall i :: 0 <= i < |tree| ==> tree[i].id in Ids(r)
  {
    forall i | 0 <= i < |tree|
      ensures tree[i].id in Ids(r)
    {
      assert Ids(t)[i] == Ids(tree)[i] == tree[i].id;
      assert t[i].id in Ids(r);
    }
  }

  /** Adding an admitted `f` and then more files keeps the key of `f`. */
  lemma FirstKeyKept(p: Parser, tree: Tree, f: Discovered, t: Tree, r: Tree)
    requires Distinct(Ids(tree))
    requires AddModule(p, tree, f.basedir, f.filename, f.src) == Success(t)
    requires Admitted(p, f)
    requires forall i :: 0 <= i < |t| ==> t[i].id in Ids(r)
    ensures Normalize(p, f.filename) in Ids(r)
  {
    var id := Normalize(p, f.filename);
    LookupPresent(t, id);
    var k :| 0 <= k < |t| && Ids(t)[k] == id;
    assert t[k].id in Ids(r);
  }

  lemma AddModuleClean(p: Parser, tree: Tree, f: Discovered)
    requires ExclusionClean(p, tree)
    ensures AddModule(p, tree, f.basedir, f.filename, f.src).Success? ==>
      ExclusionClean(p, AddModule(p, tree, f.basedir, f.filename, f.src).value)
  {
    var r := AddModule(p, tree, f.basedir, f.filename, f.src);
    var id := Normalize(p, f.filename);
    if r.Success? && !Excludes(p, id) && p.env.fileExists(f.filename) {
      var t := r.value;
      var deps := ParseFile(p, f.basedir, f.filename, f.src).value;
      forall i | 0 <= i < |t|
        ensures !Excludes(p, t[i].id)
        ensures Distinct(t[i].deps)
        ensures forall j :: 0 <= j < |t[i].deps| ==> IsExcluded(p, t[i].deps[j]) == Success(false)
      {
        LookupAt(t, i);
        if t[i].id == id {
          assert t[i].deps == deps;
        } else {
          var k :| 0 <= k < |tree| && tree[k].id == t[i].id;
          LookupAt(tree, k);
        }
      }
    }
  }

  /** The sorted property `e` comes from parsing `f`: its id is the file's id and its
      list holds the parse result's values, reordered. */
  predicate SortedProduced(p: Parser, f: Discovered, e: Entry) {
    && e.id == Normalize(p, f.filename)
    && ParseFile(p, f.basedir, f.filename, f.src).Success?
    && multiset(e.deps) == multiset(ParseFile(p, f.basedir, f.filename, f.src).value)
  }

  /** The constructor's traversal and final pass: the discovered files are added in
      turn to an empty tree, which is then sorted. */
  function ParseTree(p: Parser, files: seq<Discovered>): (r: Result<Tree, Error>)
    ensures r.Success? ==> ExclusionClean(p, r.value)
    ensures r.Success? ==> forall i, j :: 0 <= i < j < |r.value| ==>
      StrLe(r.value[i].id, r.value[j].id) && r.value[i].id != r.value[j].id
    ensures r.Success? ==> forall i :: 0 <= i < |r.value| ==> Sorted(r.value[i].deps, OptLe)
    ensures r.Success? ==> forall i :: 0 <= i < |r.value| ==>
      LastAdmitted(p, files, r.value[i].id).Some? && SortedProduced(p, files[LastAdmitted(p, files, r.value[i].id).value], r.value[i])
    ensures r.Success? ==> forall j :: 0 <= j < |files| && Admitted(p, files[j]) ==>
      Normalize(p, files[j].filename) in Ids(r.value)
    ensures !p.opts.breakOnError ==> r.Success?
    ensures r.Failure? <==> FirstBreak(p, files).Some?
    ensures r.Failure? ==> ParseFile(p, files[FirstBreak(p, files).value].basedir, files[FirstBreak(p, files).value].filename,
      files[FirstBreak(p, files).value].src) == Failure(r.error)
  {
    match AddModules(p, [], files)
    case Failure(e) => Failure(e)
    case Success(t) =>
      SortKeepsClean(p, t);
      SortTraces(p, files, t);
      SortKeepsKeys(p, files, t);
      Success(SortDependencies(t))
  }

  /** Sorting keeps every property traced to a file. */
  lemma SortTraces(p: Parser, files: seq<Discovered>, t: Tree)
    requires Distinct(Ids(t))
    requires forall i :: 0 <= i < |t| ==> Traced(p, [], files, t[i])
    ensures var s := SortDependencies(t);
      forall i :: 0 <= i < |s| ==>
        LastAdmitted(p, files, s[i].id).Some? && SortedProduced(p, files[LastAdmitted(p, files, s[i].id).value], s[i])
  {
    var s := SortDependencies(t);
    forall i | 0 <= i < |s|
      ensures LastAdmitted(p, files, s[i].id).Some?
      ensures SortedProduced(p, files[LastAdmitted(p, files, s[i].id).value], s[i])
    {
      var k := SortedSource(t, i);
      assert Traced(p, [], files, t[k]);
      var j := LastAdmitted(p, files, t[k].id).value;
      ProducedSorted(p, files[j], t[k], s[i]);
    }
  }

  /** Sorting keeps the key of every admitted file. */
  lemma SortKeepsKeys(p: Parser, files: seq<Discovered>, t: Tree)
    requires Distinct(Ids(t))
    requires forall j :: 0 <= j < |files| && Admitted(p, files[j]) ==> Normalize(p, files[j].filename) in Ids(t)
    ensures forall j :: 0 <= j < |files| && Admitted(p, files[j]) ==>
      Normalize(p, files[j].filename) in Ids(SortDependencies(t))
  {
    var s := SortDependencies(t);
    forall j | 0 <= j < |files| && Admitted(p, files[j])
      ensures Normalize(p, files[j].filename) in Ids(s)
    {
      assert Normalize(p, files[j].filename) in multiset(Ids(t));
    }
  }

  /** The `i`-th sorted property is the sorted `k`-th property of the unsorted tree. */
  lemma SortedSource(t: Tree, i: nat) returns (k: nat)
    requires Distinct(Ids(t)) && i < |SortDependencies(t)|
    ensures k < |t| && t[k].id == SortDependencies(t)[i].id
    ensures multiset(SortDependencies(t)[i].deps) == multiset(t[k].deps)
  {
    var s := SortDependencies(t);
    assert Ids(s)[i] in multiset(Ids(t));
    k :| 0 <= k < |t| && Ids(t)[k] == s[i].id;
    LookupAt(t, k);
  }

  /** Reordering a produced list keeps it traced to the same file. */
  lemma ProducedSorted(p: Parser, f: Discovered, e: Entry, sorted: Entry)
    requires Produced(p, f, e)
    requires sorted.id == e.id && multiset(sorted.deps) == multiset(e.deps)
    ensures SortedProduced(p, f, sorted)
  {
  }

  /** Sorting keeps the tree free of excluded ids and of repeated dependencies. */
  lemma SortKeepsClean(p: Parser, t: Tree)
    requires ExclusionClean(p, t)
    ensures ExclusionClean(p, SortDependencies(t))
  {
    var s := SortDependencies(t);
    DistinctMultiset(Ids(t), Ids(s));
    forall i | 0 <= i < |s|
      ensures !Excludes(p, s[i].id)
      ensures Distinct(s[i].deps)
      ensures forall j :: 0 <= j < |s[i].deps| ==> IsExcluded(p, s[i].deps[j]) == Success(false)
    {
      assert Ids(s)[i] in multiset(Ids(t));
      var k :| 0 <= k < |t| && Ids(t)[k] == s[i].id;
      LookupAt(t, k);
      DistinctMultiset(t[k].deps, s[i].deps);
      forall j | 0 <= j < |s[i].deps|
        ensures IsExcluded(p, s[i].deps[j]) == Success(false)
      {
        assert s[i].deps[j] in multiset(t[k].deps);
      }
    }
  }
}

=== FILE: ordering.dfy ===
/** The orders JavaScript's default `Array.prototype.sort` uses on the values of the
    dependency graph, and a functional insertion sort proved to yield the unique sorted
    permutation. */
module Ordering {
  import opened Wrappers

  ghost predicate TotalOrder<T(!new)>(le: (T, T) -> bool) {
    && (forall a, b :: le(a, b) && le(b, a) ==> a == b)
    && (forall a, b, c :: le(a, b) && le(b, c) ==> le(a, c))
    && (forall a, b :: le(a, b) || le(b, a))
  }

  ghost predicate Sorted<T>(s: seq<T>, le: (T, T) -> bool) {
    forall i, j :: 0 <= i < j < |s| ==> le(s[i], s[j])
  }

  /** Lexicographic order on strings, comparing character by character: the order of
      the default `sort` on strings. */
  predicate StrLe(a: string, b: string)
    decreases |a|
  {
    |a| == 0 || (|b| > 0 && (a[0] < b[0] || (a[0] == b[0] && StrLe(a[1..], b[1..]))))
  }

  /** The default `sort` order on array slots that hold a string or `undefined`:
      strings compare as strings and `undefined` goes after every string. */
  predicate OptLe(a: Option<string>, b: Option<string>) {
    match (a, b)
    case (Some(x), Some(y)) => StrLe(x, y)
    case (Some(_), None) => true
    case (None, Some(_)) => false
    case (None, None) => true
  }

  lemma {:induction false} StrLeAntisymmetric(a: string, b: string)
    requires StrLe(a, b) && StrLe(b, a)
    ensures a == b
    decreases |a|
  {
    if |a| > 0 {
      StrLeAntisymmetric(a[1..], b[1..]);
      assert a == [a[0]] + a[1..];
      assert b == [b[0]] + b[1..];
    }
  }

  lemma {:induction false} StrLeTransitive(a: string, b: string, c: string)
    requires StrLe(a, b) && StrLe(b, c)
    ensures StrLe(a, c)
    decreases |a|
  {
    if |a| > 0 && a[0] == b[0] && b[0] == c[0] {
      StrLeTransitive(a[1..], b[1..], c[1..]);
    }
  }

  lemma {:induction false} StrLeTotal(a: string, b: string)
    ensures StrLe(a, b) || StrLe(b, a)
    decreases |a|
  {
    if |a| > 0 && |b| > 0 && a[0] == b[0] {
      StrLeTotal(a[1..], b[1..]);
    }
  }

  lemma StrLeIsTotalOrder()
    ensures TotalOrder(StrLe)
  {
    forall a, b | StrLe(a, b) && StrLe(b, a)
      ensures a == b
    {
      StrLeAntisymmetric(a, b);
    }
    forall a, b, c | StrLe(a, b) && StrLe(b, c)
      ensures StrLe(a, c)
    {
      StrLeTransitive(a, b, c);
    }
    forall a, b
      ensures StrLe(a, b) || StrLe(b, a)
    {
      StrLeTotal(a, b);
    }
  }

  lemma OptLeIsTotalOrder()
    ensures TotalOrder(OptLe)
  {
    forall a, b | OptLe(a, b) && OptLe(b, a)
      ensures a == b
    {
      if a.Some? && b.Some? {
        StrLeAntisymmetric(a.value, b.value);
      }
    }
    forall a, b, c | OptLe(a, b) && OptLe(b, c)
      ensures OptLe(a, c)
    {
      if a.Some? && b.Some? && c.Some? {
        StrLeTransitive(a.value, b.value, c.value);
      }
    }
    forall a, b
      ensures OptLe(a, b) || OptLe(b, a)
    {
      if a.Some? && b.Some? {
        StrLeTotal(a.value, b.value);
      }
    }
  }

  /** Inserts `x` into the sorted sequence `s` before the first element it precedes. */
  function Insert<T(!new)>(x: T, s: seq<T>, le: (T, T) -> bool): (r: seq<T>)
    requires TotalOrder(le)
    requires Sorted(s, le)
    ensures Sorted(r, le)
    ensures multiset(r) == multiset(s) + multiset{x}
  {
    if |s| == 0 then [x]
    else if le(x, s[0]) then
      InsertFront(x, s, le);
      [x] + s
    else
      var t := Insert(x, s[1..], le);
      assert s == [s[0]] + s[1..];
      InsertBehind(x, s, t, le);
      [s[0]] + t
  }

  lemma InsertFront<T(!new)>(x: T, s: seq<T>, le: (T, T) -> bool)
    requires TotalOrder(le)
    requires Sorted(s, le)
    requires |s| > 0 && le(x, s[0])
    ensures Sorted([x] + s, le)
  {
  }

  lemma InsertBehind<T(!new)>(x: T, s: seq<T>, t: seq<T>, le: (T, T) -> bool)
    requires TotalOrder(le)
    requires Sorted(s, le)
    requires |s| > 0 && !le(x, s[0])
    requires Sorted(t, le)
    requires multiset(t) == multiset(s[1..]) + multiset{x}
    ensures Sorted([s[0]] + t, le)
  {
    forall j | 0 <= j < |t|
      ensures le(s[0], t[j])
    {
      assert t[j] in multiset(t);
      if t[j] != x {
        assert t[j] in multiset(s[1..]);
        var k :| 0 <= k < |s[1..]| && s[1..][k] == t[j];
        assert s[k + 1] == t[j];
      }
    }
  }

  /** Insertion sort under `le`. */
  function Sort<T(!new)>(s: seq<T>, le: (T, T) -> bool): (r: seq<T>)
    requires TotalOrder(le)
    ensures Sorted(r, le)
    ensures multiset(r) == multiset(s)
  {
    if |s| == 0 then []
    else
      assert s == [s[0]] + s[1..];
      Insert(s[0], Sort(s[1..], le), le)
  }

  /** The head of a sorted sequence precedes every element of it. */
  lemma SortedHeadLeast<T(!new)>(a: seq<T>, x: T, le: (T, T) -> bool)
    requires TotalOrder(le)
    requires Sorted(a, le)
    requires x in multiset(a)
    ensures le(a[0], x)
  {
    var i :| 0 <= i < |a| && a[i] == x;
    if i == 0 {
      assert le(x, x) || le(x, x);
    }
  }

  lemma MultisetTail<T>(a: seq<T>)
    requires |a| > 0
    ensures multiset(a[1..]) == multiset(a) - multiset{a[0]}
  {
    assert a == [a[0]] + a[1..];
  }

  /** Under a total order there is only one sorted arrangement of a multiset. */
  lemma {:induction false} SortedUnique<T(!new)>(a: seq<T>, b: seq<T>, le: (T, T) -> bool)
    requires TotalOrder(le)
    requires Sorted(a, le) && Sorted(b, le)
    requires multiset(a) == multiset(b)
    ensures a == b
    decreases |a|
  {
    assert |b| == |multiset(b)| == |multiset(a)| == |a|;
    if |a| > 0 {
      assert a[0] in multiset(a);
      assert b[0] in multiset(b);
      SortedHeadLeast(b, a[0], le);
      SortedHeadLeast(a, b[0], le);
      assert a[0] == b[0];
      MultisetTail(a);
      MultisetTail(b);
      SortedUnique(a[1..], b[1..], le);
      assert a == [a[0]] + a[1..];
      assert b == [b[0]] + b[1..];
    }
  }

  /** Sorting is idempotent, and leaves an already sorted sequence unchanged. */
  lemma SortIdempotent<T(!new)>(s: seq<T>, le: (T, T) -> bool)
    requires TotalOrder(le)
    ensures Sort(Sort(s, le), le) == Sort(s, le)
    ensures Sorted(s, le) ==> Sort(s, le) == s
  {
    SortedUnique(Sort(Sort(s, le), le), Sort(s, le), le);
    if Sorted(s, le) {
      SortedUnique(Sort(s, le), s, le);
    }
  }
}

=== FILE: paths.dfy ===
/** Path manipulation the parser relies on: the backslash rewrite, the extension strip of
    module ids, and simplified forms of Node's `path.resolve` and `path.relative`. */
module Paths {
  import opened Text

  /** Rewrites every `\` to `/` (a global `replace`), turning Windows paths into ids. */
  function ReplaceBackslash(s: string): (r: string)
    ensures |r| == |s|
    ensures '\\' !in r
    ensures forall i :: 0 <= i < |s| && s[i] != '\\' ==> r[i] == s[i]
    ensures forall i :: 0 <= i < |s| && s[i] == '\\' ==> r[i] == '/'
  {
    if |s| == 0 then "" else (if s[0] == '\\' then "/" else [s[0]]) + ReplaceBackslash(s[1..])
  }

  /** A string is left as it is exactly when it holds no backslash; hence the rewrite is
      idempotent. */
  lemma ReplaceBackslashFixpoint(s: string)
    ensures ReplaceBackslash(s) == s <==> '\\' !in s
    ensures ReplaceBackslash(ReplaceBackslash(s)) == ReplaceBackslash(s)
  {
    var r := ReplaceBackslash(s);
    if '\\' !in s {
      assert forall i :: 0 <= i < |s| ==> r[i] == s[i];
    }
    var rr := ReplaceBackslash(r);
    assert forall i :: 0 <= i < |r| ==> rr[i] == r[i];
  }

  /** The rewrite works character by character, so it distributes over concatenation. */
  lemma ReplaceBackslashAppend(a: string, b: string)
    ensures ReplaceBackslash(a + b) == ReplaceBackslash(a) + ReplaceBackslash(b)
  {
    var l, r := ReplaceBackslash(a + b), ReplaceBackslash(a) + ReplaceBackslash(b);
    forall i | 0 <= i < |l|
      ensures l[i] == r[i]
    {
      if i < |a| {
        assert (a + b)[i] == a[i];
      } else {
        assert (a + b)[i] == b[i - |a|];
      }
    }
  }

  /** The file extensions whose trailing occurrence a module id drops. */
  const SourceExtensions: seq<string> := [".js", ".coffee", ".jsx"]

  predicate HasSourceExtension(s: string) {
    exists e :: e in SourceExtensions && EndsWith(s, e)
  }

  /** Removes one trailing `.js`, `.coffee` or `.jsx`, as `replace(/\.(js|coffee|jsx)$/, '')`
      does; anything else is left unchanged. */
  function StripSourceExtension(s: string): (r: string)
    ensures StartsWith(s, r)
    ensures r == s <==> !HasSourceExtension(s)
    ensures r != s ==> exists e :: e in SourceExtensions && s == r + e
  {
    if EndsWith(s, ".js") then
      assert s == s[..|s| - 3] + ".js";
      s[..|s| - 3]
    else if EndsWith(s, ".coffee") then
      assert s == s[..|s| - 7] + ".coffee";
      s[..|s| - 7]
    else if EndsWith(s, ".jsx") then
      assert s == s[..|s| - 4] + ".jsx";
      s[..|s| - 4]
    else
      assert forall e :: e in SourceExtensions ==> e == ".js" || e == ".coffee" || e == ".jsx";
      s
  }

  /** Stripping then rewriting leaves the rewritten path less exactly the extension
      that was stripped. */
  lemma ReplaceBackslashStripped(rel: string)
    ensures var r := ReplaceBackslash(StripSourceExtension(rel));
      && |r| <= |rel|
      && ReplaceBackslash(rel) == r + rel[|r|..]
      && (|r| == |rel| <==> !HasSourceExtension(rel))
      && (|r| < |rel| ==> rel[|r|..] in SourceExtensions)
  {
    var stripped := StripSourceExtension(rel);
    var r := ReplaceBackslash(stripped);
    if stripped == rel {
      assert rel[|r|..] == "";
      assert r + "" == r;
    } else {
      var e :| e in SourceExtensions && rel == stripped + e;
      StrippedTail(stripped, e);
      ReplaceBackslashAppend(stripped, e);
      ReplaceBackslashFixpoint(e);
      assert |r| == |stripped| < |rel|;
      assert rel[|r|..] == e;
      assert ReplaceBackslash(rel) == r + e;
      assert HasSourceExtension(rel);
    }
  }

  lemma StrippedTail(stripped: string, e: string)
    requires e in SourceExtensions
    ensures (stripped + e)[|stripped|..] == e && |e| > 0 && '\\' !in e
  {
    assert e == ".js" || e == ".coffee" || e == ".jsx";
  }

  /** Appending a source extension and stripping it again gives back the original. */
  lemma StripAppendedExtension(rel: string, ext: string)
    requires ext in SourceExtensions
    ensures StripSourceExtension(rel + ext) == rel
  {
    var s := rel + ext;
    assert s[|rel|..] == ext;
    if ext == ".coffee" {
      assert s[|s| - 1] == 'e';
    } else if ext == ".jsx" {
      assert s[|s| - 1] == 'x';
    }
  }

  /** `path.resolve(dir, id)` without dot-segment normalisation: an absolute `id` stands
      for itself, anything else is joined to `dir`. */
  function ResolvePath(dir: string, id: string): (r: string)
    ensures EndsWith(r, id)
    ensures |id| > 0 && id[0] == '/' ==> r == id
    ensures !(|id| > 0 && id[0] == '/') ==> StartsWith(r, dir + "/")
  {
    if |id| > 0 && id[0] == '/' then id else dir + "/" + id
  }

  /** What a path below `dir` starts with: `dir` and one separating slash, which the root
      directory `/` already ends in. */
  function Below(dir: string): (r: string)
    ensures |r| > 0 && r[|r| - 1] == '/' && StartsWith(r, dir)
    ensures |r| == |dir| <==> EndsWith(dir, "/")
    ensures |r| <= |dir| + 1
  {
    if EndsWith(dir, "/") then dir else dir + "/"
  }

  /** `path.relative(baseDir, file)`: the part of `file` below `baseDir` when `file` lies
      under it; the answer for any other `file` is supplied by `outside`. */
  function Relative(baseDir: string, file: string, outside: (string, string) -> string): (r: string)
    ensures forall rel :: file == Below(baseDir) + rel ==> r == rel
  {
    var prefix := Below(baseDir);
    if StartsWith(file, prefix) then file[|prefix|..] else outside(baseDir, file)
  }

  /** Files directly below the root directory `/` get their own path less the slash. */
  lemma RelativeToRoot(file: string, outside: (string, string) -> string)
    requires |file| > 0 && file[0] == '/'
    ensures Relative("/", file, outside) == file[1..]
  {
    assert Below("/") == "/";
    assert file == Below("/") + file[1..];
  }

  /** `/^[a-z]:\//i`: a drive-letter prefix such as `C:/`. */
  predicate HasDrivePrefix(s: string) {
    |s| >= 3 && IsAsciiLetter(s[0]) && s[1] == ':' && s[2] == '/'
  }
}

=== FILE: patterns.dfy ===
/** The two regular expressions the CommonJS parser runs over a file's source text,
    written out as string scans: the fast-path test `/require\s*\(/` and the self-export
    capture `/module\.exports\s*?=\s*([A-Z]+[a-z]+)/`. */
module Patterns {
  import opened Wrappers
  import opened Text

  /** `require`, optional whitespace and `(` begin at position `i` of `src`. */
  predicate RequireCallAt(src: string, i: nat) {
    i + 7 <= |src| && src[i..i + 7] == "require"
    && var j := Span(src, i + 7, Whitespace); j < |src| && src[j] == '('
  }

  /** Searches `src` from position `i` for a `require(` call site. */
  function RequireCallFrom(src: string, i: nat): (r: bool)
    ensures r <==> exists k :: i <= k && RequireCallAt(src, k)
    decreases |src| - i
  {
    if i + 7 > |src| then false
    else RequireCallAt(src, i) || RequireCallFrom(src, i + 1)
  }

  /** `/require\s*\(/.test(src)`. */
  function HasRequireCall(src: string): (r: bool)
    ensures r <==> exists k :: 0 <= k && RequireCallAt(src, k)
  {
    RequireCallFrom(src, 0)
  }

  /** Read literally: `require` at `i`, whitespace only between `i + 7` and `j`, and
      `(` at `j`. */
  ghost predicate RequireCallSpans(src: string, i: nat, j: nat) {
    && i + 7 <= j < |src|
    && src[i..i + 7] == "require"
    && (forall k :: i + 7 <= k < j ==> IsJsWhitespace(src[k]))
    && src[j] == '('
  }

  lemma RequireCallAtSpans(src: string, i: nat, j: nat)
    requires RequireCallSpans(src, i, j)
    ensures RequireCallAt(src, i)
  {
    assert !IsJsWhitespace(src[j]);
  }

  /** The scan agrees with the regular expression read literally. */
  lemma HasRequireCallMeaning(src: string)
    ensures HasRequireCall(src) <==> exists i, j :: RequireCallSpans(src, i, j)
  {
    if HasRequireCall(src) {
      var i :| 0 <= i && RequireCallAt(src, i);
      var j := Span(src, i + 7, Whitespace);
      assert RequireCallSpans(src, i, j);
    }
    if exists i, j :: RequireCallSpans(src, i, j) {
      var i, j :| RequireCallSpans(src, i, j);
      RequireCallAtSpans(src, i, j);
    }
  }

  /** The match of the self-export regular expression anchored at position `i`, as the
      end of the match and the start of the captured name. `\s*?` before `=` and `\s*`
      after it can only stop at the first non-blank character; `[A-Z]+` then takes every
      capital and `[a-z]+` every lower-case letter after it. */
  function ExportAt(src: string, i: nat): (r: Option<(nat, nat)>)
    ensures r.Some? ==> i + 14 <= r.value.1 < r.value.0 <= |src|
    ensures r.Some? ==> src[i..i + 14] == "module.exports"
    ensures r.Some? ==> IsAsciiUpper(src[r.value.1])
  {
    if i + 14 <= |src| && src[i..i + 14] == "module.exports" then
      var eq := Span(src, i + 14, Whitespace);
      if eq < |src| && src[eq] == '=' then
        var name := Span(src, eq + 1, Whitespace);
        var caps := Span(src, name, Uppercase);
        if caps > name then
          var end := Span(src, caps, Lowercase);
          if end > caps then Some((end, name)) else None
        else None
      else None
    else None
  }

  /** Read literally, a match of the self-export expression at `i` with its greedy end:
      `module.exports` at `i`, only whitespace up to `=` at `eq`, only whitespace up to the
      name at `name`, capitals up to `caps`, and then lower-case letters up to `end`,
      where the lower-case run stops. */
  ghost predicate ExportSpans(src: string, i: nat, eq: nat, name: nat, caps: nat, end: nat) {
    && i + 14 <= eq < name < caps < end <= |src|
    && src[i..i + 14] == "module.exports"
    && (forall k :: i + 14 <= k < eq ==> IsJsWhitespace(src[k]))
    && src[eq] == '='
    && (forall k :: eq + 1 <= k < name ==> IsJsWhitespace(src[k]))
    && (forall k :: name <= k < caps ==> IsAsciiUpper(src[k]))
    && (forall k :: caps <= k < end ==> IsAsciiLower(src[k]))
    && (end == |src| || !IsAsciiLower(src[end]))
  }

  /** The scan at `i` agrees with the expression read literally: it reports exactly the
      match that starts there, with its captured name. */
  lemma ExportAtMeaning(src: string, i: nat, end: nat, name: nat)
    ensures ExportAt(src, i) == Some((end, name)) <==> exists eq: nat, caps: nat :: ExportSpans(src, i, eq, name, caps, end)
  {
    if ExportAt(src, i) == Some((end, name)) {
      ExportAtSpans(src, i);
    }
    if exists eq: nat, caps: nat :: ExportSpans(src, i, eq, name, caps, end) {
      var eq: nat, caps: nat :| ExportSpans(src, i, eq, name, caps, end);
      SpansExportAt(src, i, eq, name, caps, end);
    }
  }

  /** The match the scan reports has the literal shape. */
  lemma ExportAtSpans(src: string, i: nat)
    requires ExportAt(src, i).Some?
    ensures ExportSpans(src, i, Span(src, i + 14, Whitespace), ExportAt(src, i).value.1,
      Span(src, ExportAt(src, i).value.1, Uppercase), ExportAt(src, i).value.0)
  {
  }

  /** A match of the literal shape is the one the scan reports. */
  lemma SpansExportAt(src: string, i: nat, eq: nat, name: nat, caps: nat, end: nat)
    requires ExportSpans(src, i, eq, name, caps, end)
    ensures ExportAt(src, i) == Some((end, name))
  {
    SpanEnds(src, i + 14, eq, Whitespace);
    SpanEnds(src, eq + 1, name, Whitespace);
    SpanEnds(src, name, caps, Uppercase);
    SpanEnds(src, caps, end, Lowercase);
  }

  /** The leftmost match at or after position `i`, as its start, end and name start. */
  function ExportFrom(src: string, i: nat): (r: Option<(nat, nat, nat)>)
    ensures r.Some? ==> i <= r.value.0 && ExportAt(src, r.value.0) == Some((r.value.1, r.value.2))
    ensures r.Some? ==> forall k :: i <= k < r.value.0 ==> ExportAt(src, k).None?
    ensures r.None? ==> forall k :: i <= k ==> ExportAt(src, k).None?
    decreases |src| - i
  {
    if i + 14 > |src| then None
    else match ExportAt(src, i)
      case Some((end, name)) => Some((i, end, name))
      case None => ExportFrom(src, i + 1)
  }

  /** A match starts at `s` and at no earlier position. */
  ghost predicate LeftmostExport(src: string, s: nat) {
    ExportAt(src, s).Some? && forall k :: 0 <= k < s ==> ExportAt(src, k).None?
  }

  /** The array `match` returns for the match starting at `s`: the whole match, then the
      captured name. */
  function ExportGroups(src: string, s: nat): seq<string>
    requires ExportAt(src, s).Some?
  {
    var (end, name) := ExportAt(src, s).value;
    [src[s..end], src[name..end]]
  }

  /** `src.match(/module\.exports\s*?=\s*([A-Z]+[a-z]+)/)`: the array holding the whole
      leftmost match and its one captured name, or `null`. */
  function ExportMatch(src: string): (r: Option<seq<string>>)
    ensures r.Some? ==>
      |r.value| == 2 && StartsWith(r.value[0], "module.exports") && EndsWith(r.value[0], r.value[1])
    ensures r.Some? <==> exists i :: ExportAt(src, i).Some?
    ensures r.Some? ==> exists s :: LeftmostExport(src, s) && r.value == ExportGroups(src, s)
  {
    match ExportFrom(src, 0)
    case None => None
    case Some((start, end, name)) =>
      assert LeftmostExport(src, start);
      Some([src[start..end], src[name..end]])
  }

  /** A source starting `module.exports = Thing;` matches at once, capturing `Thing`. */
  lemma ExportMatchThing(src: string)
    requires |src| >= 23 && src[..23] == "module.exports = Thing;"
    ensures ExportMatch(src) == Some(["module.exports = Thing", "Thing"])
  {
    var lit := "module.exports = Thing;";
    assert forall k :: 0 <= k < 23 ==> src[k] == lit[k];
    assert src[..14] == lit[..14] == "module.exports";
    assert src[0..14] == src[..14];
    SpanEnds(src, 14, 15, Whitespace);
    SpanEnds(src, 16, 17, Whitespace);
    SpanEnds(src, 17, 18, Uppercase);
    SpanEnds(src, 18, 22, Lowercase);
    assert ExportAt(src, 0) == Some((22, 17));
    assert src[0..22] == lit[..22] == "module.exports = Thing";
    assert src[17..22] == lit[17..22] == "Thing";
  }

  /** No match can start where no `m` follows. */
  lemma {:induction false} NoExportWithoutM(src: string, i: nat)
    requires forall k :: i <= k < |src| ==> src[k] != 'm'
    ensures ExportFrom(src, i).None?
    decreases |src| - i
  {
    if i + 14 <= |src| {
      assert src[i..i + 14][0] != 'm';
      NoExportWithoutM(src, i + 1);
    }
  }

  /** A lower-case name is not a self-export. */
  lemma ExportMatchNeedsCapital()
    ensures ExportMatch("module.exports = thing").None?
  {
    var src := "module.exports = thing";
    assert src[0..14] == "module.exports";
    assert Span(src, 14, Whitespace) == 15;
    assert Span(src, 16, Whitespace) == 17;
    assert Span(src, 17, Uppercase) == 17;
    assert ExportAt(src, 0).None?;
    NoExportWithoutM(src, 1);
  }

  /** A name without lower-case letters is not a self-export either. */
  lemma ExportMatchNeedsLowercase()
    ensures ExportMatch("module.exports = THING").None?
  {
    var src := "module.exports = THING";
    assert src[0..14] == "module.exports";
    assert Span(src, 14, Whitespace) == 15;
    assert Span(src, 16, Whitespace) == 17;
    assert Span(src, 17, Uppercase) == 22;
    assert Span(src, 22, Lowercase) == 22;
    assert ExportAt(src, 0).None?;
    NoExportWithoutM(src, 1);
  }

  /** Whitespace may separate `require` from its parenthesis; another letter may not. */
  lemma HasRequireCallExamples()
    ensures HasRequireCall("require ('x')")
    ensures !HasRequireCall("requires(")
  {
    var spaced := "require ('x')";
    assert spaced[0..7] == "require";
    assert Span(spaced, 7, Whitespace) == 8;
    assert RequireCallAt(spaced, 0);
    var other := "requires(";
    assert other[0..7] == "require";
    assert Span(other, 7, Whitespace) == 7;
    assert !RequireCallAt(other, 0);
    assert !RequireCallAt(other, 1) by { assert other[1..8] != "require" by { assert other[1] == 'e'; } }
    assert !RequireCallAt(other, 2) by { assert other[2..9] != "require" by { assert other[2] == 'q'; } }
  }

  /** `require(` at position `i` makes the fast-path test succeed. */
  lemma RequireCallLiteral(src: string, i: nat)
    requires i + 8 <= |src| && src[i..i + 8] == "require("
    ensures HasRequireCall(src)
  {
    assert src[i..i + 7] == src[i..i + 8][..7];
    assert src[i + 7] == '(';
    SpanEnds(src, i + 7, i + 7, Whitespace);
    assert RequireCallAt(src, i);
  }

  /** A source that exports `Thing` and then requires `thing`. */
  lemma ExportThenRequire()
    ensures HasRequireCall("module.exports = Thing; require('thing')")
    ensures ExportMatch("module.exports = Thing; require('thing')") == Some(["module.exports = Thing", "Thing"])
  {
    var src := "module.exports = Thing; require('thing')";
    assert src == "module.exports = Thing;" + " " + "require(" + "'thing')";
    assert src[..23] == "module.exports = Thing;";
    assert src[24..32] == "require(";
    ExportMatchThing(src);
    RequireCallLiteral(src, 24);
  }
}

=== FILE: text.dfy ===
/** String and sequence helpers shared by the model. Strings are `seq<char>`. */
module Text {

  predicate StartsWith(s: string, prefix: string) {
    |prefix| <= |s| && s[..|prefix|] == prefix
  }

  predicate EndsWith(s: string, suffix: string) {
    |suffix| <= |s| && s[|s| - |suffix|..] == suffix
  }

  predicate IsAsciiUpper(c: char) { 'A' <= c <= 'Z' }

  predicate IsAsciiLower(c: char) { 'a' <= c <= 'z' }

  predicate IsAsciiLetter(c: char) { IsAsciiUpper(c) || IsAsciiLower(c) }

  /** ASCII-only approximation of JavaScript's `toLowerCase` on one character. */
  function LowerChar(c: char): char {
    if IsAsciiUpper(c) then (c as int + 32) as char else c
  }

  function Lower(s: string): string {
    seq(|s|, i requires 0 <= i < |s| => LowerChar(s[i]))
  }

  function LowerAll(ss: seq<string>): (r: seq<string>)
    ensures |r| == |ss|
    ensures forall i :: 0 <= i < |ss| ==> r[i] == Lower(ss[i])
  {
    if |ss| == 0 then [] else [Lower(ss[0])] + LowerAll(ss[1..])
  }

  /** The characters JavaScript's regular-expression class `\s` matches. */
  predicate IsJsWhitespace(c: char) {
    || c == '\t' || c == '\n' || c == '\U{000B}' || c == '\U{000C}' || c == '\r' || c == ' '
    || c == '\U{00A0}' || c == '\U{1680}' || ('\U{2000}' <= c <= '\U{200A}')
    || c == '\U{2028}' || c == '\U{2029}' || c == '\U{202F}' || c == '\U{205F}'
    || c == '\U{3000}' || c == '\U{FEFF}'
  }

  /** The character classes the modelled regular expressions repeat. */
  datatype CharClass = Whitespace | Uppercase | Lowercase

  predicate InClass(c: char, cls: CharClass) {
    match cls
    case Whitespace => IsJsWhitespace(c)
    case Uppercase => IsAsciiUpper(c)
    case Lowercase => IsAsciiLower(c)
  }

  /** The end of the longest run of `cls` characters in `s` starting at `from`:
      what a greedy `cls*` consumes there. */
  function Span(s: string, from: nat, cls: CharClass): (r: nat)
    requires from <= |s|
    ensures from <= r <= |s|
    ensures forall k :: from <= k < r ==> InClass(s[k], cls)
    ensures r < |s| ==> !InClass(s[r], cls)
    decreases |s| - from
  {
    if from == |s| || !InClass(s[from], cls) then from else Span(s, from + 1, cls)
  }

  /** `Span` stops exactly where the run of `cls` characters ends. */
  lemma SpanEnds(s: string, from: nat, stop: nat, cls: CharClass)
    requires from <= stop <= |s|
    requires forall k :: from <= k < stop ==> InClass(s[k], cls)
    requires stop == |s| || !InClass(s[stop], cls)
    ensures Span(s, from, cls) == stop
    decreases stop - from
  {
    if from < stop {
      assert InClass(s[from], cls);
      SpanEnds(s, from + 1, stop, cls);
    }
  }

  /** Concatenation of a sequence of strings, left to right. */
  function Concat(ss: seq<string>): string {
    if |ss| == 0 then "" else ss[0] + Concat(ss[1..])
  }

  /** Concatenation can be read from the right as well: the last string comes last. */
  lemma {:induction false} ConcatSnoc(ss: seq<string>)
    requires |ss| > 0
    ensures Concat(ss) == Concat(ss[..|ss| - 1]) + ss[|ss| - 1]
  {
    if |ss| > 1 {
      ConcatSnoc(ss[1..]);
      assert ss[1..][..|ss| - 2] == ss[..|ss| - 1][1..];
    }
  }

  predicate Distinct<T(==)>(s: seq<T>) {
    forall i, j :: 0 <= i < j < |s| ==> s[i] != s[j]
  }

  /** Index of the first occurrence of `x` in `s`, as `Array.prototype.indexOf` finds it. */
  function FirstIndex<T(==)>(s: seq<T>, x: T): (r: nat)
    requires x in s
    ensures r < |s| && s[r] == x
    ensures forall k :: 0 <= k < r ==> s[k] != x
  {
    if s[0] == x then 0 else 1 + FirstIndex(s[1..], x)
  }

  /** First occurrences of the elements of `s`, in the order they first occur. */
  function Dedup<T(==)>(s: seq<T>): (r: seq<T>)
    ensures Distinct(r)
    ensures forall i :: 0 <= i < |r| ==> r[i] in s
    ensures forall i :: 0 <= i < |s| ==> s[i] in r
    ensures forall i, j :: 0 <= i < j < |r| ==> FirstIndex(s, r[i]) < FirstIndex(s, r[j])
  {
    if |s| == 0 then []
    else
      var d := Dedup(s[..|s| - 1]);
      DedupStep(s, d);
      if s[|s| - 1] in d then d else d + [s[|s| - 1]]
  }

  /** One more element: `Dedup` keeps it only when it is new. */
  lemma DedupSnoc<T>(s: seq<T>, x: T)
    ensures Dedup(s + [x]) == if x in Dedup(s) then Dedup(s) else Dedup(s) + [x]
  {
    assert (s + [x])[..|s + [x]| - 1] == s;
  }

  /** The inductive step of `Dedup`: extending the first occurrences of the front of `s`
      by its last element when that element is new. */
  lemma DedupStep<T>(s: seq<T>, d: seq<T>)
    requires |s| > 0
    requires Distinct(d)
    requires forall i :: 0 <= i < |d| ==> d[i] in s[..|s| - 1]
    requires forall i :: 0 <= i < |s| - 1 ==> s[i] in d
    requires forall i, j :: 0 <= i < j < |d| ==> FirstIndex(s[..|s| - 1], d[i]) < FirstIndex(s[..|s| - 1], d[j])
    ensures var r := if s[|s| - 1] in d then d else d + [s[|s| - 1]];
      && Distinct(r)
      && (forall i :: 0 <= i < |r| ==> r[i] in s)
      && (forall i :: 0 <= i < |s| ==> s[i] in r)
      && (forall i, j :: 0 <= i < j < |r| ==> FirstIndex(s, r[i]) < FirstIndex(s, r[j]))
  {
    var front := s[..|s| - 1];
    var last := s[|s| - 1];
    assert s == front + [last];
    FirstIndexOfFront(s, d);
    forall i | 0 <= i < |d|
      ensures d[i] in s
    {
      assert d[i] in front;
    }
    forall i | 0 <= i < |s| - 1
      ensures s[i] in d
    {
      assert s[i] == front[i];
    }
    if last !in d {
      var r := d + [last];
      assert last !in front;
      forall i, j | 0 <= i < j < |r|
        ensures FirstIndex(s, r[i]) < FirstIndex(s, r[j])
      {
        if j == |d| {
          assert FirstIndex(s, r[i]) == FirstIndex(front, d[i]) < |front|;
        }
      }
    }
  }

  /** Appending an element leaves the first index of every earlier element unchanged. */
  lemma FirstIndexOfFront<T>(s: seq<T>, d: seq<T>)
    requires |s| > 0
    requires forall i :: 0 <= i < |d| ==> d[i] in s[..|s| - 1]
    ensures forall i :: 0 <= i < |d| ==> FirstIndex(s, d[i]) == FirstIndex(s[..|s| - 1], d[i])
    ensures s[|s| - 1] !in s[..|s| - 1] ==> FirstIndex(s, s[|s| - 1]) == |s| - 1
  {
    var front := s[..|s| - 1];
    forall i | 0 <= i < |d|
      ensures FirstIndex(s, d[i]) == FirstIndex(front, d[i])
    {
      var x := d[i];
      var k := FirstIndex(front, x);
      var n := FirstIndex(s, x);
      assert s[k] == x;
      assert n <= k;
      assert front[n] == x;
    }
  }

  /** A permutation of a sequence without repetitions has none either. */
  lemma DistinctMultiset<T>(a: seq<T>, b: seq<T>)
    requires Distinct(a)
    requires multiset(a) == multiset(b)
    ensures Distinct(b)
  {
    forall x | x in multiset(a)
      ensures multiset(a)[x] == 1
    {
      DistinctCount(a, x);
    }
    forall i, j | 0 <= i < j < |b|
      ensures b[i] != b[j]
    {
      RepeatCountsTwice(b, i, j);
      assert b[i] in multiset(a);
    }
  }

  lemma RepeatCountsTwice<T>(b: seq<T>, i: nat, j: nat)
    requires i < j < |b|
    ensures b[i] == b[j] ==> multiset(b)[b[i]] >= 2
  {
    assert b == b[..i] + [b[i]] + b[i + 1..j] + [b[j]] + b[j + 1..];
  }

  lemma DistinctCount<T>(a: seq<T>, x: T)
    requires Distinct(a)
    requires x in a
    ensures multiset(a)[x] == 1
  {
    if a[0] == x {
      assert a == [a[0]] + a[1..];
      assert x !in a[1..];
    } else {
      assert a == [a[0]] + a[1..];
      DistinctCount(a[1..], x);
    }
  }

}

=== FILE: wrappers.dfy ===
/** Failure-compatible wrappers used throughout the model. */
module Wrappers {

  /** A value or its absence; `None` also stands for JavaScript's `undefined`. */
  datatype Option<+T> = None | Some(value: T)

  /** The outcome of an operation that may throw. */
  datatype Result<+R, +E> = Success(value: R) | Failure(error: E)

  /** The outcomes of a run of calls, as one outcome: every value when all calls
      succeed, otherwise the error of the first that threw. This is what a `map` whose
      callback may throw returns. */
  function Sequence<R, E>(rs: seq<Result<R, E>>): (r: Result<seq<R>, E>)
    ensures r.Success? <==> forall k :: 0 <= k < |rs| ==> rs[k].Success?
    ensures r.Success? ==> |r.value| == |rs| && forall k :: 0 <= k < |rs| ==> rs[k] == Success(r.value[k])
    ensures r.Failure? ==>
      exists k :: 0 <= k < |rs| && rs[k] == Failure(r.error) && (forall j :: 0 <= j < k ==> rs[j].Success?)
  {
    if |rs| == 0 then Success([])
    else
      var tail := Sequence(rs[1..]);
      assert forall k :: 1 <= k < |rs| ==> rs[1..][k - 1] == rs[k];
      if rs[0].Failure? then Failure(rs[0].error)
      else if tail.Failure? then
        assert exists k :: 0 <= k < |rs| && rs[k] == Failure(tail.error) && (forall j :: 0 <= j < k ==> rs[j].Success?) by {
          var k :| 0 <= k < |rs| - 1 && rs[1..][k] == Failure(tail.error) && (forall j :: 0 <= j < k ==> rs[1..][j].Success?);
          assert rs[k + 1] == Failure(tail.error);
        }
        Failure(tail.error)
      else Success([rs[0].value] + tail.value)
  }

  /** The index of the first element satisfying `f`, as a loop that stops there finds it. */
  function FirstWhere<T>(s: seq<T>, f: T -> bool): (r: Option<nat>)
    ensures r.Some? ==> r.value < |s| && f(s[r.value])
    ensures r.Some? ==> forall k :: 0 <= k < r.value ==> !f(s[k])
    ensures r.None? ==> forall k :: 0 <= k < |s| ==> !f(s[k])
  {
    if |s| == 0 then None
    else if f(s[0]) then Some(0)
    else
      assert forall k :: 0 < k < |s| ==> s[k] == s[1..][k - 1];
      match FirstWhere(s[1..], f)
      case Some(j) => Some(j + 1)
      case None => None
  }

  /** Past a first element that fails `f`, the first index is the tail's, shifted by one. */
  lemma FirstWhereStep<T>(s: seq<T>, f: T -> bool)
    requires |s| > 0 && !f(s[0])
    ensures FirstWhere(s, f).Some? <==> FirstWhere(s[1..], f).Some?
    ensures FirstWhere(s, f).Some? ==> FirstWhere(s, f).value == FirstWhere(s[1..], f).value + 1
  {
  }
}
